=== FILE: README.md ===
# php-hooks in Dafny

This project models the `Hooks` class of php-hooks. The class is a port of the
WordPress plugin API. Callers register callbacks under string tags with an
integer priority. Other code then triggers a tag in one of two ways:

- a *filter* threads a value through the callbacks;
- an *action* notifies the callbacks.

The model covers the registry and everything the class does with it:

- `_filter_build_unique_id`, which keys a callable;
- `add_filter`, `remove_filter`, `remove_all_filters` and `has_filter`,
  plus their `*_action` aliases;
- the four triggers `apply_filters`, `apply_filters_ref_array`, `do_action`
  and `do_action_ref_array`;
- `did_action` and `current_filter`.

Each operation is a pure function. It takes the registry (`Registry.Hooks`)
and returns the registry it leaves behind, alongside PHP's result. The four
arrays of the class become fields:

- `$filters` is `filters`. Each tag's table is a sequence of priority levels
  in PHP array order, and each level holds its keys in insertion order.
  Array order matters: `has_filter` reports the first priority in that order.
- `$merged_filters` is the set `merged`.
- `$actions` is the counter map `actions`.
- `$current_filter` is the sequence `stack`.

The representation invariant is part of the type `Hooks`. Priorities are
unique, each level's keys are unique, and no level is empty. Every operation
also preserves `SortCacheSound`: a tag marked as sorted really has a sorted
table.

`spl_object_hash` is modelled as the object identity written as 32 lower-case
hex digits. The project proves this hash injective, so object-based keys
collide exactly when object and method coincide.

Callbacks are not PHP code here. A trigger is given a function `call` that
says what a callable returns for an argument list. The trigger returns the
invocations it made, in order, each with the `$current_filter` stack it ran
under.

Modules, one per file:

| module | file | contents |
|---|---|---|
| `Php` | `php.dfy` | PHP values, `array_slice`, `spl_object_hash` |
| `Callables` | `callables.dfy` | callable shapes and their keys |
| `PriorityTable` | `table.dfy` | one tag's table: store, remove, `ksort`, flattening |
| `Registry` | `registry.dfy` | the class state and the registry edits and queries |
| `Dispatch` | `dispatch.dfy` | the four triggers |
| `Findings` | `findings.dfy` | where the code departs from what it documents |

Where the code and its documentation disagree, the model follows the code:

- `do_action` and `do_action_ref_array` return null, not a success value.
- Removing a callable clears the tag's sort flag only when something was
  removed.
- `remove_all_filters` with a priority the tag lacks deletes the whole tag.
- `has_filter` returns the first priority in array order. That is the lowest
  priority only while the tag's table is sorted.
- `do_action_ref_array` writes its sort flag into a local variable
  (`$merged_filters` rather than `$this->merged_filters`). It therefore sorts
  the table on every call and never marks the tag as sorted.

## Model

| member | source | states |
|---|---|---|
| Php.Without | php-hooks.php:180-184 | the list of an array's keys after `unset`: every key it holds was an old key other than the one unset, and every such old key is still held |
| Php.WithoutAt | php-hooks.php:180-184 | in a list without repeats, leaving out one key cuts out exactly its position and keeps everything before and after it |
| Php.WithoutAbsent | php-hooks.php:180-184 | unsetting a key the array lacks leaves its list of keys as it was |
| Php.ArraySlice | php-hooks.php:335 | `array_slice($a, $offset, $length)`: a prefix of the tail from `offset`, of length `length` when that fits, the whole tail when it does not, and the tail minus `-length` elements when `length` is negative |
| Php.SplObjectHash | php-hooks.php:759-761 | the hash of an object is 32 characters and decodes back to the object's identity |
| Php.SplObjectHashInjective | php-hooks.php:759-761 | two objects have the same hash only if they are the same object |
| Php.FromHexToHex | php-hooks.php:759-761 | reading back the hex digits of an identity gives the identity |
| Callables.BuildUniqueId | php-hooks.php:739-788 | a string keys as itself, `[class, m]` as `class . m`, `[obj, m]` as the object's hash followed by `m`, a closure as its hash followed by ''; a one-element array keys like the pair with method '' and a longer array by its first two elements, so the pair shapes cover those; null, numbers, booleans and arrays whose element 0 is neither a string nor an object get no key; tag and priority play no part |
| Callables.ArrayKey | php-hooks.php:143-145 | the array key an add or remove really uses is the built key, or "" when none is built (PHP's null offset); the key is "" exactly for null, the keyless shapes, the name '' and the pair ('', ''), so exactly those registrations share one slot |
| Callables.ObjectKeyInjective | php-hooks.php:759-761 | two object keys are equal exactly when object and method are both equal |
| Callables.BoundKeyIdentity | php-hooks.php:748-761 | two object-based callables key alike exactly when they name the same object and method (a closure counts as method '') |
| PriorityTable.Upsert | php-hooks.php:145-148 | assigning `$level[$key]` sets that key, leaves other keys alone, keeps an existing key in place and appends a new one |
| PriorityTable.RemoveKey | php-hooks.php:180 | `unset($level[$key])` removes that key and leaves every other key alone |
| PriorityTable.RemoveKeyAt | php-hooks.php:180 | in a level with unique keys, unsetting the key at position `i` cuts out exactly that slot, and the remaining slots keep their order |
| PriorityTable.UpsertFresh | php-hooks.php:145-148 | assigning a key the level does not have appends its slot after all existing slots |
| PriorityTable.Store | php-hooks.php:145-148 | `$table[$p][$key] = $e` sets that entry, leaves every other (priority, key) pair alone, keeps the table well formed, keeps its layout when the key was already there, and appends the new slot at the end of its priority's level when the key was fresh; every other priority's level is untouched, and the order of priorities is kept, with a new priority appended at the end |
| PriorityTable.StoreNewLevel | php-hooks.php:145-148 | storing at a priority the table lacks appends a one-entry level after every existing level, so array order is the order priorities were first used |
| PriorityTable.StoreTwice | php-hooks.php:145-148 | storing under the same priority and key twice is storing once with the second entry |
| PriorityTable.Unstore | php-hooks.php:180-184 | unsetting an entry removes exactly that entry, and the level disappears exactly when the key was its only key; a level that remains is the old level with the key removed, and every other priority's level is untouched; the order of priorities is kept, minus the dropped one when the level went |
| PriorityTable.StoreThenUnstore | php-hooks.php:145-184 | unsetting an entry just stored under a fresh key gives back the original table |
| PriorityTable.DropLevel | php-hooks.php:214-215 | `unset($table[$p])` removes that priority only: every other level reads the same and the remaining priorities keep their order |
| PriorityTable.FirstLevelWith | php-hooks.php:256-263 | the `foreach` over the priorities in array order stops at the first level holding the key: every earlier level lacks it, and nothing is found exactly when no level holds it |
| PriorityTable.FirstPriorityWith | php-hooks.php:256-263 | the search finds a priority holding the key exactly when one exists; the priority found is that of the first level in array order holding the key; on a sorted table it is the lowest |
| PriorityTable.Ksort | php-hooks.php:307 | `ksort` leaves the table in ascending priority order with the same levels |
| PriorityTable.InsertSorted | php-hooks.php:307 | inserting a level into a sorted table keeps it sorted |
| PriorityTable.KsortSorted | php-hooks.php:305-309 | `ksort` of an already sorted table changes nothing |
| PriorityTable.KsortKeepsLevels | php-hooks.php:307 | after `ksort` every priority has the same level as before |
| PriorityTable.FlattenAscending | php-hooks.php:323-344 | walking a sorted table level by level visits entries in non-decreasing priority |
| PriorityTable.FlattenComplete | php-hooks.php:323-344 | the walk visits every stored entry |
| PriorityTable.FlattenSound | php-hooks.php:323-344 | every item the walk visits is an entry stored in the table under some key, at the priority it is stored under |
| PriorityTable.FlattenCount | php-hooks.php:323-344 | the walk has exactly one item per slot of the table, so no registration is visited twice |
| PriorityTable.KsortSize | php-hooks.php:307 | `ksort` neither adds nor drops a registration |
| PriorityTable.TwoStores | tests/HooksTest.php:51-52 | two callables added in turn at one priority end up in that order within one level |
| Registry.AddFilter | php-hooks.php:141-156 | the entry `{callable, accepted_args}` is stored under the callable's key; every other entry and tag is unchanged; re-adding keeps the layout; a fresh add lands at the end of its priority's level; every other priority's level is untouched; the priority order is kept, a new priority going at the end; the tag's sort flag is cleared; the result is true |
| Registry.AddFilterTwice | php-hooks.php:141-156 | adding the same callable twice at one tag and priority leaves one entry, in the first add's place, with the second add's fields |
| Registry.RemoveFilter | php-hooks.php:171-189 | the result is true exactly when the callable was registered at that exact priority; when false nothing changes, not even the sort flag; when true only that entry goes, its level goes exactly when it became empty and otherwise is the old level minus the key, every other level is untouched, the priority order is kept minus a level that went, the tag stays, and the sort flag is cleared |
| Registry.AddThenRemove | php-hooks.php:141-189 | removing what was just added restores the tag's table exactly |
| Registry.RemoveAllFilters | php-hooks.php:200-220 | always true and clears the sort flag; with no priority the tag goes; with a present priority only that level goes and the other levels are kept, in their order; with an absent priority the whole tag goes |
| Registry.RemoveAllThenHasFilter | php-hooks.php:200-264 | after removing all of a tag, `has_filter` finds nothing under it |
| Registry.RemoveFilterKeepsTag | php-hooks.php:171-189 | removing a registration, even the tag's last one, keeps the tag, so `has_filter` without a callable still answers true |
| Registry.EmptyKeyShared | php-hooks.php:143-145 | two callables without a key share the slot "": adding one makes the other read as registered with the first one's entry, and a null callable is found under the name '' |
| Registry.HasFilter | php-hooks.php:244-264 | without a callable, whether the tag exists; with one, a priority the callable is really registered at, false exactly when it is registered nowhere, false when its key is not built or is "" or "0", the first priority in the table's array order that holds the callable's key, and so the lowest such priority when the table is sorted |
| Registry.HasFilterFirstAdded | php-hooks.php:256-263 | on a table not yet sorted, a callable added at 20 and then at 10 is reported at 20, the priority added first |
| Registry.AddAction | php-hooks.php:464-467 | the same operation as `add_filter` |
| Registry.HasAction | php-hooks.php:489-492 | the same query as `has_filter` |
| Registry.RemoveAction | php-hooks.php:506-509 | the same operation as `remove_filter` |
| Registry.RemoveAllActions | php-hooks.php:522-525 | the same operation as `remove_all_filters` |
| Registry.DidAction | php-hooks.php:694-701 | the count is 0 for a tag that never fired |
| Registry.CurrentFilter | php-hooks.php:717-720 | false exactly when no trigger is running, otherwise the innermost tag |
| Dispatch.Live | php-hooks.php:326 | a null callable is skipped and every other entry is kept |
| Dispatch.LiveAppend | php-hooks.php:326 | skipping null callables keeps the order: the live entries of a joined schedule are those of the first part followed by those of the second |
| Dispatch.ThreadFilters | php-hooks.php:323-344 | the filter loop makes exactly one call per live entry, each under the stack it was given, and never shortens the argument list |
| Dispatch.ThreadFiltersTrace | php-hooks.php:323-344 | the `i`-th live entry is called with the argument list as the previous call left it, cut to its `accepted_args` from the threaded slot, and the last result ends up in that slot |
| Dispatch.Push | php-hooks.php:285 | pushing a tag puts it on top of the `$current_filter` stack and touches nothing else |
| Dispatch.WithSorted | php-hooks.php:305-309 | the tag's table is replaced by a reordering with the same levels, the sort flag is set when asked for and left alone otherwise, nothing else changes, and a sound sort flag stays sound when the new table is sorted |
| Dispatch.CachedSort | php-hooks.php:305-309 | a trigger walks the table as stored when the tag's flag is set and `ksort`ed otherwise; either way it has the same levels, and it is sorted whenever the flag is sound |
| Dispatch.CachedSortIsKsort | php-hooks.php:305-309 | with a sound sort flag, skipping the sort walks the same table as sorting would |
| Dispatch.FilterPass | php-hooks.php:290-354 | an unregistered tag returns the value unchanged; otherwise the tag is marked as sorted, the table keeps the same levels, and the stack and counters are as before |
| Dispatch.FilterPassCalls | php-hooks.php:323-354 | every live entry is called in schedule order with the current value followed by the extra arguments, cut to its `accepted_args`, under a stack topped by the tag; each result is the next value and the last is returned |
| Dispatch.ApplyFilters | php-hooks.php:278-355 | with anything registered under "all" the call fails with the tag pushed; otherwise it is the filter pass, with the stack restored afterwards |
| Dispatch.ApplyFiltersRefArray | php-hooks.php:368-440 | with "all" registered the call fails; an unregistered tag returns `$args[0]`; otherwise the tag is marked as sorted and the stack restored |
| Dispatch.ApplyFiltersRefArrayCalls | php-hooks.php:400-439 | every live entry is called in schedule order with the argument list cut to its `accepted_args`, with `$args[0]` replaced by the previous result; the last result is returned |
| Dispatch.Fire | php-hooks.php:546-552 | the tag's counter goes up by one from 0 or from its count, and no other counter moves |
| Dispatch.DoActionUnwrapsObject | php-hooks.php:579-584 | `do_action` with a one-element array holding an object behaves exactly like `do_action` with the object itself |
| Dispatch.ActionTrace | php-hooks.php:600-608 | the action loop calls the `i`-th live entry, and only it, with the arguments cut to its `accepted_args`, under the given stack |
| Dispatch.ActionPass | php-hooks.php:564-610 | an unregistered tag returns; otherwise each live entry is called once, in schedule order, with the first `accepted_args` arguments under a stack topped by the tag, the tag is marked as sorted, and the stack is restored |
| Dispatch.DoAction | php-hooks.php:539-611 | the counter goes up exactly once, even for an unregistered tag; with "all" registered the call fails; otherwise each live entry is called once, in order, with the (unwrapped) arguments cut to `accepted_args`; the result is null |
| Dispatch.DoActionRefArray | php-hooks.php:624-682 | the counter goes up exactly once; the table is sorted on every call and the sort flag is left as it was; each live entry is called once, in ascending priority order, with `$args` cut to `accepted_args` |
| Dispatch.ScheduleAscending | php-hooks.php:305-344 | with a sound sort flag, a trigger calls its entries in non-decreasing priority order |
| Dispatch.ScheduleComplete | php-hooks.php:323-344 | every registered entry whose callable is not null is called by a trigger of its tag |
| Dispatch.ScheduleSound | php-hooks.php:323-344 | a trigger calls nothing but registrations of its tag: each scheduled item has a non-null callable and is the entry registered at its priority |
| Dispatch.ScheduleCount | php-hooks.php:305-344 | the walk a trigger makes, sorted or not, has exactly one item per registration of the tag |
| Dispatch.AddedRunsAfter | php-hooks.php:135-148 | a callable added at a priority where it was not registered runs after every live entry already registered at that priority |
| Dispatch.FiltersRunInRegistrationOrder | tests/HooksTest.php:51-56 | two filters added in turn at one priority of a fresh tag run in that order: the result is the second applied to the first applied to the value |
| Dispatch.CurrentFilterDuringAction | php-hooks.php:574-610 | inside each callback of an action, `current_filter()` names that action, and afterwards it is as before the call |
| Findings.HasFilterMissesKeyZero | php-hooks.php:251-254 | a callable named "0" registered at 10 is reported absent by `has_filter` and found at 10 by the corrected check |
| Findings.HasFilterIntended | php-hooks.php:244-264 | with the key tested for existence: false exactly when the callable is registered nowhere, whatever its key |
| Findings.HasFilterAgrees | php-hooks.php:251-254 | the corrected check and the code agree on every key except "" and "0" |
| Findings.RemoveAllFiltersDropsOtherLevels | php-hooks.php:212-218 | clearing an absent priority 99 deletes a filter registered at 10; the corrected removal keeps it |
| Findings.RemoveAllFiltersIntended | php-hooks.php:200-220 | the corrected removal with a priority removes exactly that level and keeps every other entry and the tag itself |
| Findings.RemoveAllFiltersAgrees | php-hooks.php:212-218 | the corrected removal and the code agree unless an existing tag lacks the given priority |
| Findings.AllHookCalls | php-hooks.php:797-808 | `__call_all_hook` calls every live "all" entry, in array order, with the whole argument list |
| Findings.Prelude | php-hooks.php:282-288 | no "all" calls when nothing is registered under "all"; otherwise one call per live entry, the `i`-th calling the `i`-th live "all" callable, each with the trigger's full argument list and the tag on top of the stack |
| Findings.ApplyFiltersIntended | php-hooks.php:282-355 | the corrected `apply_filters` always returns; with no "all" entries it is the code's `apply_filters`; otherwise the "all" calls come first and the filter pass follows unchanged |
| Findings.DoActionIntended | php-hooks.php:539-611 | the corrected `do_action` always returns null after bumping the counter once; with no "all" entries it is the code's `do_action`; otherwise the "all" calls come first and the action pass follows unchanged |
| Findings.AllHookIsUndefined | php-hooks.php:287 | with one "all" entry, `apply_filters` and `do_action` fail as written, while the corrected triggers call the entry with `['t', 'x']` and return |

## Left out

- The singleton plumbing (php-hooks.php:80-115): the private constructor, `__clone`, `__wakeup` and `getInstance` only wire one instance into the process.
- Debug output: the `$debugOutput` echo and `dump` paths, and `debug()`. These are output only. Extra arguments to `apply_filters` still fill that parameter's slot; the model passes them on as extra arguments and ignores their debug effect.
- Real PHP calls: `call_user_func_array` becomes the `call` parameter. By-reference aliasing (`=&` at php-hooks.php:581) and exceptions thrown by callbacks are not modelled.
- Callbacks that edit the registry or trigger hooks while they run are not modelled. Their effect depends on PHP's internal array pointer. Nesting shows only through the stack each invocation records.
- The key built without `spl_object_hash` (php-hooks.php:763-780) is not modelled. It depends on a static counter and writes a property onto the object, and `spl_object_hash` always exists in PHP.
- `do_action` with no `$arg` is modelled as passing its default ''. `func_get_args` would leave that '' out of the "all" hook's arguments, which `Findings.DoActionIntended` does not reflect.
- Only `apply_filters` and `do_action` get a corrected "all" branch. The two ref-array triggers contain the same call and fail the same way as written.
- PHP arrays as values and as the `$args` of the ref-array triggers are modelled as lists (keys 0, 1, …). An `$args` with string keys or without key 0 (php-hooks.php:400-439, 663-680) is outside the model.
- Shortcodes (`add_shortcode`, `do_shortcode`, `shortcode_atts`) are not part of this model.
- Registry.DidAction: states only the never-fired case on its own. The count after firing is stated by `Dispatch.Fire`, `Dispatch.DoAction` and `Dispatch.DoActionRefArray`.
- Registry.AddAction, Registry.RemoveAction, Registry.RemoveAllActions, Registry.HasAction: each is stated as equal to the filter operation it forwards to, and the filter operation carries the property.

## Findings

| source | as written | input that shows it | evidently intended | confidence | as-written member | corrected member |
|---|---|---|---|---|---|---|
| php-hooks.php:287 | the four triggers call `$this->_call_all_hook(...)` (also lines 375, 559 and 644), but the class defines only `__call_all_hook` (line 797); any trigger with something registered under "all" stops with an error after pushing the tag | `add_filter('all', 'log')` then `apply_filters('t', 'x')` | call `__call_all_hook` with the trigger's arguments, then dispatch as usual | high, not executed | Findings.AllHookIsUndefined | Findings.ApplyFiltersIntended |
| php-hooks.php:212-218 | `remove_all_filters($tag, $priority)` with a priority the tag does not have falls into the `else` branch and deletes every priority of the tag | `add_filter('t', 'f', 10)` then `remove_all_filters('t', 99)`: `has_filter('t')` is false | remove only the named priority, as the parameter's documentation says ("The priority number to remove") | medium, not executed | Findings.RemoveAllFiltersDropsOtherLevels | Findings.RemoveAllFiltersIntended |
| php-hooks.php:251-254 | `has_filter` rejects the key by truthiness (`!($idx = ...)`), so a key of "0" (or "") is treated as "no key" | `add_filter('t', '0', 10)` then `has_filter('t', '0')` returns false | return false only when no key can be built, as the documentation's "returns the priority of that hook" promises | low, not executed | Findings.HasFilterMissesKeyZero | Findings.HasFilterIntended |

=== FILE: callables.dfy ===
/** The shapes of PHP callable a hook can be registered with, and the key
    (`_filter_build_unique_id`) under which a registration is stored. */
module Callables {
  import opened Php

  datatype Callable =
    | NullFn                            // PHP null where a callback is expected
    | Named(name: string)               // 'my_function'
    | Static(cls: string, meth: string)   // array('MyClass', 'method')
    | Bound(obj: ObjId, meth: string)     // array($object, 'method')
    | Closure(obj: ObjId)                   // an anonymous function or invokable object
    | Other                             // no key: a number, a boolean, an array whose element 0 is neither string nor object

  /** The key of an object-based callable: the object's identity hash followed
      by the method name (empty for a closure). */
  function ObjectKey(o: ObjId, meth: string): (k: string)
    ensures |k| == HashWidth + |meth|
    ensures FromHex(k[..HashWidth]) == o && k[HashWidth..] == meth
  {
    var h := SplObjectHash(o);
    assert (h + meth)[..HashWidth] == h;
    h + meth
  }

  /** `_filter_build_unique_id` on the `spl_object_hash` branch. Strings key
      as themselves, static pairs as the concatenation, object-based
      callables by identity; a null, a number, a boolean or an array whose
      element 0 is neither a string nor an object gives no key. An array with
      one element keys as the pair with method '', and one with more than
      two keys by its first two, so `Static` and `Bound` stand for those
      too. The tag and priority play no part on this branch, so they are not
      parameters. */
  function BuildUniqueId(f: Callable): (r: Option<string>)
    ensures r.None? <==> f.NullFn? || f.Other?
    ensures f.Named? ==> r == Some(f.name)
    ensures f.Static? ==> r == Some(f.cls + f.meth)
    ensures f.Bound? ==> r.Some? && |r.value| >= HashWidth && FromHex(r.value[..HashWidth]) == f.obj && r.value[HashWidth..] == f.meth
    ensures f.Closure? ==> r.Some? && |r.value| == HashWidth && FromHex(r.value) == f.obj
  {
    match f
    case Named(name) => Some(name)
    case Static(cls, meth) => Some(cls + meth)
    case Bound(o, meth) => Some(ObjectKey(o, meth))
    case Closure(o) =>
      var k := ObjectKey(o, "");
      assert k[..HashWidth] == k;
      Some(k)
    case _ => None
  }

  /** The array key the registry really uses: PHP turns a null offset into
      the empty string, so every keyless callable lands under "". */
  function ArrayKey(f: Callable): (k: string)
    ensures BuildUniqueId(f).Some? ==> k == BuildUniqueId(f).value
    ensures BuildUniqueId(f).None? ==> k == ""
    ensures k == "" <==> f.NullFn? || f.Other? || f == Named("") || f == Static("", "")
  {
    match BuildUniqueId(f)
    case Some(k) => k
    case None => ""
  }

  /** Two object-based callables share a key exactly when they name the same
      object and the same method; a closure keys like its object bound to "". */
  lemma {:induction false} ObjectKeyInjective(o1: ObjId, m1: string, o2: ObjId, m2: string)
    ensures ObjectKey(o1, m1) == ObjectKey(o2, m2) <==> o1 == o2 && m1 == m2
  {
    if ObjectKey(o1, m1) == ObjectKey(o2, m2) {
      var k := ObjectKey(o1, m1);
      assert FromHex(k[..HashWidth]) == o1 && FromHex(k[..HashWidth]) == o2;
    }
  }

  /** Object keys are unaffected by anything but the object and the method:
      the same instance keys alike on every call, distinct instances never
      collide. */
  lemma BoundKeyIdentity(f: Callable, g: Callable)
    requires f.Bound? || f.Closure?
    requires g.Bound? || g.Closure?
    ensures BuildUniqueId(f) == BuildUniqueId(g) <==>
      f.obj == g.obj && (if f.Bound? then f.meth else "") == (if g.Bound? then g.meth else "")
  {
    var mf := if f.Bound? then f.meth else "";
    var mg := if g.Bound? then g.meth else "";
    ObjectKeyInjective(f.obj, mf, g.obj, mg);
  }
}

=== FILE: dispatch.dfy ===
/** The four triggers of the `Hooks` class: `apply_filters`,
    `apply_filters_ref_array`, `do_action` and `do_action_ref_array`.
    Callbacks are not PHP code here: a trigger is given the function `call`
    that says what a callable returns for an argument list, and reports the
    invocations it made, each with the `$current_filter` stack it ran under.
    Callbacks are taken not to edit the registry while they run. */
module Dispatch {
  import opened Php
  import opened Callables
  import opened PriorityTable
  import opened Registry

  /** One callback invocation. */
  datatype Invocation = Invocation(callee: Callable, args: seq<Value>, stack: seq<string>)

  /** How a trigger ends. `Raised` is the PHP `Error` thrown when the
      branch for the reserved tag "all" calls `_call_all_hook`, a method the
      class does not define; it carries the registry as the error leaves it. */
  datatype Outcome =
    | Returned(value: Value, trace: seq<Invocation>, reg: Hooks)
    | Raised(reg: Hooks)

  /** What a callable returns when called with an argument list. */
  type Callback = (Callable, seq<Value>) -> Value

  const AllTag: string := "all"

  /** The entries the dispatch loop calls: a null callable is skipped. */
  function Live(sched: seq<Scheduled>): (r: seq<Scheduled>)
    ensures |r| <= |sched|
    ensures forall i | 0 <= i < |r| :: !r[i].entry.callback.NullFn? && r[i] in sched
    ensures forall x | x in sched && !x.entry.callback.NullFn? :: x in r
  {
    if sched == [] then []
    else if sched[0].entry.callback.NullFn? then Live(sched[1..])
    else [sched[0]] + Live(sched[1..])
  }

  /** Skipping nulls works piece by piece: the entries kept from `a`
      come first, in `a`'s order, then those kept from `b`. */
  lemma {:induction false} LiveAppend(a: seq<Scheduled>, b: seq<Scheduled>)
    ensures Live(a + b) == Live(a) + Live(b)
  {
    if a == [] {
      assert a + b == b;
    } else {
      assert (a + b)[0] == a[0] && (a + b)[1..] == a[1..] + b;
      LiveAppend(a[1..], b);
    }
  }

  /** A single entry is kept exactly when its callable is not null. */
  lemma LiveOne(x: Scheduled)
    ensures Live([x]) == if x.entry.callback.NullFn? then [] else [x]
  {
    assert [x][1..] == [];
  }

  /** `$args[$slot] = $v` on a list that has at least `slot` elements. */
  function SetAt(args: seq<Value>, slot: nat, v: Value): (r: seq<Value>)
    requires slot <= |args|
    ensures |r| == Max(|args|, slot + 1) && r[slot] == v
    ensures forall i | 0 <= i < |args| && i != slot :: r[i] == args[i]
  {
    if slot < |args| then args[slot := v] else args + [v]
  }

  /** `$args[$slot]`, which PHP reads as null when unset. */
  function At(args: seq<Value>, slot: nat): Value {
    if slot < |args| then args[slot] else Null
  }

  /** The argument list a filter loop holds before the `i`-th call: the
      original one, then with the threaded slot overwritten by the previous
      call's result. */
  function ArgsBefore(args: seq<Value>, slot: nat, tr: seq<Invocation>, i: nat, call: Callback): seq<Value>
    requires slot <= |args| && i <= |tr|
  {
    if i == 0 then args else SetAt(args, slot, call(tr[i - 1].callee, tr[i - 1].args))
  }

  /** The filter loop over a schedule: each live entry is called with the
      argument list from the threaded slot on, cut to its `accepted_args`,
      and its result is written back into that slot. */
  function ThreadFilters(sched: seq<Scheduled>, args: seq<Value>, slot: nat, stack: seq<string>, call: Callback)
    : (res: (seq<Value>, seq<Invocation>))
    requires slot <= |args|
    ensures |res.1| == |Live(sched)|
    ensures forall i | 0 <= i < |res.1| :: res.1[i].stack == stack
    ensures |res.0| >= |args|
    decreases |sched|
  {
    if sched == [] then (args, [])
    else if sched[0].entry.callback.NullFn? then ThreadFilters(sched[1..], args, slot, stack, call)
    else
      var e := sched[0].entry;
      var a := ArraySlice(args, slot, e.acceptedArgs);
      var rest := ThreadFilters(sched[1..], SetAt(args, slot, call(e.callback, a)), slot, stack, call);
      (rest.0, [Invocation(e.callback, a, stack)] + rest.1)
  }

  lemma SetAtTwice(args: seq<Value>, slot: nat, v1: Value, v2: Value)
    requires slot <= |args|
    ensures SetAt(SetAt(args, slot, v1), slot, v2) == SetAt(args, slot, v2)
  {
  }

  /** The list before a later call does not depend on the first call's
      result once a later result has overwritten the slot. */
  lemma ArgsBeforeCons(args: seq<Value>, slot: nat, x: Invocation, rest: seq<Invocation>, i: nat, call: Callback)
    requires slot <= |args| && 0 < i <= 1 + |rest|
    ensures ArgsBefore(args, slot, [x] + rest, i, call) == ArgsBefore(SetAt(args, slot, call(x.callee, x.args)), slot, rest, i - 1, call)
  {
    var tr := [x] + rest;
    if i > 1 {
      assert tr[i - 1] == rest[i - 2];
      SetAtTwice(args, slot, call(x.callee, x.args), call(tr[i - 1].callee, tr[i - 1].args));
    }
  }

  /** The loop's promise, call by call, for a trace `tr` over the live
      entries `live` starting from the list `args`. */
  predicate Threaded(live: seq<Scheduled>, args: seq<Value>, slot: nat, stack: seq<string>, call: Callback, res: (seq<Value>, seq<Invocation>))
    requires slot <= |args|
  {
    && |res.1| == |live|
    && (forall i | 0 <= i < |res.1| ::
      && res.1[i].callee == live[i].entry.callback
      && res.1[i].stack == stack
      && res.1[i].args == ArraySlice(ArgsBefore(args, slot, res.1, i, call), slot, live[i].entry.acceptedArgs))
    && res.0 == ArgsBefore(args, slot, res.1, |res.1|, call)
  }

  /** One call in front of a threaded run gives a threaded run. */
  lemma ThreadedCons(x: Scheduled, liveTail: seq<Scheduled>, args: seq<Value>, slot: nat, stack: seq<string>, call: Callback, rest: (seq<Value>, seq<Invocation>))
    requires slot <= |args|
    requires Threaded(liveTail, SetAt(args, slot, call(x.entry.callback, ArraySlice(args, slot, x.entry.acceptedArgs))), slot, stack, call, rest)
    ensures Threaded([x] + liveTail, args, slot, stack, call,
      (rest.0, [Invocation(x.entry.callback, ArraySlice(args, slot, x.entry.acceptedArgs), stack)] + rest.1))
  {
    var a := ArraySlice(args, slot, x.entry.acceptedArgs);
    var args' := SetAt(args, slot, call(x.entry.callback, a));
    var inv := Invocation(x.entry.callback, a, stack);
    var tr := [inv] + rest.1;
    var live := [x] + liveTail;
    forall i | 0 <= i < |tr|
      ensures tr[i].callee == live[i].entry.callback && tr[i].stack == stack
      ensures tr[i].args == ArraySlice(ArgsBefore(args, slot, tr, i, call), slot, live[i].entry.acceptedArgs)
    {
      if i > 0 {
        assert tr[i] == rest.1[i - 1] && live[i] == liveTail[i - 1];
        ArgsBeforeCons(args, slot, inv, rest.1, i, call);
      }
    }
    ArgsBeforeCons(args, slot, inv, rest.1, |tr|, call);
  }

  /** What the filter loop does, call by call: the `i`-th live entry is
      called with the list as the previous call left it, sliced from the
      threaded slot to its `accepted_args`; the list it ends with carries the
      last call's result in that slot. */
  lemma {:induction false} ThreadFiltersTrace(sched: seq<Scheduled>, args: seq<Value>, slot: nat, stack: seq<string>, call: Callback)
    requires slot <= |args|
    ensures Threaded(Live(sched), args, slot, stack, call, ThreadFilters(sched, args, slot, stack, call))
    decreases |sched|
  {
    if sched == [] {
    } else if sched[0].entry.callback.NullFn? {
      ThreadFiltersTrace(sched[1..], args, slot, stack, call);
    } else {
      var e := sched[0].entry;
      var args' := SetAt(args, slot, call(e.callback, ArraySlice(args, slot, e.acceptedArgs)));
      ThreadFiltersTrace(sched[1..], args', slot, stack, call);
      assert Live(sched) == [sched[0]] + Live(sched[1..]);
      ThreadedCons(sched[0], Live(sched[1..]), args, slot, stack, call, ThreadFilters(sched[1..], args', slot, stack, call));
    }
  }

  /** The action loop over a schedule: each live entry is called once with
      the first `accepted_args` arguments; results are dropped. */
  function ActionTrace(sched: seq<Scheduled>, args: seq<Value>, stack: seq<string>): (tr: seq<Invocation>)
    ensures |tr| == |Live(sched)|
    ensures forall i | 0 <= i < |tr| ::
      tr[i] == Invocation(Live(sched)[i].entry.callback, ArraySlice(args, 0, Live(sched)[i].entry.acceptedArgs), stack)
  {
    if sched == [] then []
    else if sched[0].entry.callback.NullFn? then ActionTrace(sched[1..], args, stack)
    else
      [Invocation(sched[0].entry.callback, ArraySlice(args, 0, sched[0].entry.acceptedArgs), stack)]
        + ActionTrace(sched[1..], args, stack)
  }

  /** The table a trigger walks: `ksort`ed unless the tag's sort flag is set. */
  function CachedSort(h: Hooks, tag: string): (t: seq<Level>)
    requires tag in h.filters
    ensures WellFormed(t)
    ensures forall p :: FindLevel(t, p) == FindLevel(h.filters[tag], p)
    ensures SortCacheSound(h) ==> Sorted(t)
  {
    KsortKeepsLevels(h.filters[tag]);
    if tag in h.merged then h.filters[tag] else Ksort(h.filters[tag])
  }

  /** The entries a trigger of `tag` calls, in the order it calls them. */
  function Schedule(h: Hooks, tag: string): seq<Scheduled>
    requires tag in h.filters
  {
    Live(Flatten(CachedSort(h, tag)))
  }

  /** The registry after a trigger has sorted `tag`'s table into `t`. */
  function WithSorted(h: Hooks, tag: string, t: seq<Level>, setFlag: bool): (h': Hooks)
    requires tag in h.filters && WellFormed(t)
    requires forall p :: FindLevel(t, p) == FindLevel(h.filters[tag], p)
    ensures h'.filters == h.filters[tag := t] && h'.actions == h.actions && h'.stack == h.stack
    ensures h'.merged == if setFlag then h.merged + {tag} else h.merged
    ensures SortCacheSound(h) && Sorted(t) ==> SortCacheSound(h')
  {
    var h': State := h.(filters := h.filters[tag := t], merged := if setFlag then h.merged + {tag} else h.merged);
    assert WellFormedState(h') by {
      forall x | x in h'.filters ensures WellFormed(h'.filters[x]) {
        if x != tag {
          assert h'.filters[x] == h.filters[x];
        }
      }
    }
    h'
  }

  /** `$current_filter[] = $tag`. */
  function Push(h: Hooks, tag: string): (h': Hooks)
    ensures h'.stack == h.stack + [tag] && h'.filters == h.filters && h'.merged == h.merged && h'.actions == h.actions
  {
    h.(stack := h.stack + [tag])
  }

  /** `apply_filters` once the branch for "all" is behind it: an
      unregistered tag hands the value back; otherwise the tag is pushed,
      its table sorted unless the flag says it already is, the flag set, the
      value threaded through the schedule and the tag popped again. */
  function FilterPass(h: Hooks, tag: string, value: Value, extra: seq<Value>, call: Callback): (o: Outcome)
    ensures o.Returned?
    ensures tag !in h.filters ==> o == Returned(value, [], h)
    ensures tag in h.filters ==> tag in o.reg.merged
    ensures o.reg.stack == h.stack && o.reg.actions == h.actions
    ensures o.reg.filters.Keys == h.filters.Keys
    ensures tag in h.filters ==> forall p :: FindLevel(o.reg.filters[tag], p) == FindLevel(h.filters[tag], p)
    ensures SortCacheSound(h) ==> SortCacheSound(o.reg)
  {
    if tag !in h.filters then Returned(value, [], h)
    else
      var t := CachedSort(h, tag);
      var res := ThreadFilters(Flatten(t), [Str(tag), value] + extra, 1, h.stack + [tag], call);
      Returned(At(res.0, 1), res.1, WithSorted(h, tag, t, true))
  }

  /** `apply_filters($tag, $value, ...$extra)`. */
  function ApplyFilters(h: Hooks, tag: string, value: Value, extra: seq<Value>, call: Callback): (o: Outcome)
    ensures AllTag in h.filters ==> o == Raised(Push(h, tag))
    ensures AllTag !in h.filters ==> o == FilterPass(h, tag, value, extra, call)
    ensures AllTag !in h.filters && tag !in h.filters ==> o == Returned(value, [], h)
    ensures AllTag !in h.filters && tag in h.filters ==> o.Returned? && tag in o.reg.merged
    ensures o.Returned? ==> o.reg.stack == h.stack && o.reg.actions == h.actions
    ensures o.Returned? ==> o.reg.filters.Keys == h.filters.Keys
    ensures SortCacheSound(h) ==> SortCacheSound(o.reg)
  {
    if AllTag in h.filters then Raised(Push(h, tag))
    else FilterPass(h, tag, value, extra, call)
  }

  /** The calls a filter pass makes on a registered tag: every live entry
      in schedule order, each handed the current value followed by the extra
      arguments, cut to its `accepted_args` in total, under a stack whose top
      is the tag; each result becomes the next current value, and the last
      one is returned. */
  lemma FilterPassCalls(h: Hooks, tag: string, value: Value, extra: seq<Value>, call: Callback)
    ensures var o := FilterPass(h, tag, value, extra, call);
      && (forall i | 0 <= i < |o.trace| :: o.trace[i].stack == h.stack + [tag])
      && o.value == FilterValue(value, o.trace, |o.trace|, call)
      && (tag in h.filters ==>
        && |o.trace| == |Schedule(h, tag)|
        && forall i | 0 <= i < |o.trace| ::
          && o.trace[i].callee == Schedule(h, tag)[i].entry.callback
          && o.trace[i].args == ArraySlice([FilterValue(value, o.trace, i, call)] + extra, 0, Schedule(h, tag)[i].entry.acceptedArgs))
  {
    if tag in h.filters {
      var t := CachedSort(h, tag);
      var args := [Str(tag), value] + extra;
      ThreadFiltersTrace(Flatten(t), args, 1, h.stack + [tag], call);
      var res := ThreadFilters(Flatten(t), args, 1, h.stack + [tag], call);
      FilterArguments(tag, value, extra, res.1, call);
    }
  }

  /** The value a filter chain holds before the `i`-th call: the input, then
      whatever the previous callback returned. */
  function FilterValue(v0: Value, tr: seq<Invocation>, i: nat, call: Callback): Value
    requires i <= |tr|
  {
    if i == 0 then v0 else call(tr[i - 1].callee, tr[i - 1].args)
  }

  /** With the tag in slot 0 and the value in slot 1, slicing from slot 1 is
      slicing the value followed by the extra arguments. */
  lemma FilterArguments(tag: string, value: Value, extra: seq<Value>, tr: seq<Invocation>, call: Callback)
    ensures forall i, n | 0 <= i <= |tr| ::
      ArraySlice(ArgsBefore([Str(tag), value] + extra, 1, tr, i, call), 1, n)
        == ArraySlice([FilterValue(value, tr, i, call)] + extra, 0, n)
    ensures forall i | 0 <= i <= |tr| :: ArgsBefore([Str(tag), value] + extra, 1, tr, i, call)[1] == FilterValue(value, tr, i, call)
  {
    forall i | 0 <= i <= |tr|
      ensures ArgsBefore([Str(tag), value] + extra, 1, tr, i, call) == [Str(tag)] + ([FilterValue(value, tr, i, call)] + extra)
    {
      FilterArgumentsAt(tag, value, extra, tr, i, call);
    }
    forall i, n | 0 <= i <= |tr|
      ensures ArraySlice(ArgsBefore([Str(tag), value] + extra, 1, tr, i, call), 1, n)
        == ArraySlice([FilterValue(value, tr, i, call)] + extra, 0, n)
    {
      SliceAfterHead(Str(tag), [FilterValue(value, tr, i, call)] + extra, n);
    }
  }

  lemma FilterArgumentsAt(tag: string, value: Value, extra: seq<Value>, tr: seq<Invocation>, i: nat, call: Callback)
    requires i <= |tr|
    ensures ArgsBefore([Str(tag), value] + extra, 1, tr, i, call) == [Str(tag)] + ([FilterValue(value, tr, i, call)] + extra)
  {
    var a := [Str(tag), value] + extra;
    assert a == [Str(tag)] + ([value] + extra);
    if i > 0 {
      var v := FilterValue(value, tr, i, call);
      assert SetAt(a, 1, v) == [Str(tag)] + ([v] + extra);
    }
  }

  /** Slicing from slot 1 skips the head. */
  lemma SliceAfterHead(x: Value, rest: seq<Value>, n: int)
    ensures ArraySlice([x] + rest, 1, n) == ArraySlice(rest, 0, n)
  {
    assert ([x] + rest)[1..] == rest;
  }

  /** `apply_filters_ref_array($tag, $args)`: the value travels in
      `$args[0]`, and each callback sees the list from slot 0 on. */
  function ApplyFiltersRefArray(h: Hooks, tag: string, args: seq<Value>, call: Callback): (o: Outcome)
    ensures AllTag in h.filters ==> o == Raised(Push(h, tag))
    ensures AllTag !in h.filters && tag !in h.filters ==> o == Returned(At(args, 0), [], h)
    ensures AllTag !in h.filters && tag in h.filters ==> o.Returned? && tag in o.reg.merged
    ensures o.Returned? ==> o.reg.stack == h.stack && o.reg.actions == h.actions
    ensures o.Returned? ==> o.reg.filters.Keys == h.filters.Keys
    ensures o.Returned? && tag in h.filters ==> forall p :: FindLevel(o.reg.filters[tag], p) == FindLevel(h.filters[tag], p)
    ensures SortCacheSound(h) ==> SortCacheSound(o.reg)
  {
    if AllTag in h.filters then Raised(Push(h, tag))
    else if tag !in h.filters then Returned(At(args, 0), [], h)
    else
      var t := CachedSort(h, tag);
      var res := ThreadFilters(Flatten(t), args, 0, h.stack + [tag], call);
      Returned(At(res.0, 0), res.1, WithSorted(h, tag, t, true))
  }

  /** The calls `apply_filters_ref_array` makes on a registered tag: every
      live entry in schedule order, each handed the argument list with
      `$args[0]` replaced by the previous result, cut to its `accepted_args`;
      the last result (or null when nothing ran on an empty list) is returned. */
  lemma ApplyFiltersRefArrayCalls(h: Hooks, tag: string, args: seq<Value>, call: Callback)
    requires ApplyFiltersRefArray(h, tag, args, call).Returned?
    ensures var o := ApplyFiltersRefArray(h, tag, args, call);
      && (forall i | 0 <= i < |o.trace| :: o.trace[i].stack == h.stack + [tag])
      && o.value == FilterValue(At(args, 0), o.trace, |o.trace|, call)
      && (tag in h.filters ==>
        && |o.trace| == |Schedule(h, tag)|
        && forall i | 0 <= i < |o.trace| ::
          && o.trace[i].callee == Schedule(h, tag)[i].entry.callback
          && o.trace[i].args == ArraySlice(ArgsBefore(args, 0, o.trace, i, call), 0, Schedule(h, tag)[i].entry.acceptedArgs))
  {
    if tag in h.filters {
      var t := CachedSort(h, tag);
      ThreadFiltersTrace(Flatten(t), args, 0, h.stack + [tag], call);
      var res := ThreadFilters(Flatten(t), args, 0, h.stack + [tag], call);
      assert Threaded(Schedule(h, tag), args, 0, h.stack + [tag], call, res);
      assert ApplyFiltersRefArray(h, tag, args, call) == Returned(At(res.0, 0), res.1, WithSorted(h, tag, t, true));
      FirstSlotValue(args, res.1, call);
    }
  }

  /** After a filter loop threading slot 0, that slot holds the last call's
      result, or the original first argument when nothing ran. */
  lemma FirstSlotValue(args: seq<Value>, tr: seq<Invocation>, call: Callback)
    ensures At(ArgsBefore(args, 0, tr, |tr|, call), 0) == FilterValue(At(args, 0), tr, |tr|, call)
  {
  }

  /** `$actions[$tag]` after one more firing. */
  function Fire(h: Hooks, tag: string): (h': Hooks)
    ensures DidAction(h', tag) == DidAction(h, tag) + 1
    ensures forall x | x != tag :: DidAction(h', x) == DidAction(h, x)
    ensures h'.filters == h.filters && h'.merged == h.merged && h'.stack == h.stack
  {
    h.(actions := h.actions[tag := DidAction(h, tag) + 1])
  }

  /** The argument `do_action` passes first: a one-element list holding an
      object is replaced by that object, anything else is passed as is. */
  function Unwrap(arg: Value): (r: Value)
    ensures arg.Arr? && |arg.items| == 1 && arg.items[0].Obj? ==> r == arg.items[0]
    ensures !(arg.Arr? && |arg.items| == 1 && arg.items[0].Obj?) ==> r == arg
  {
    if arg.Arr? && |arg.items| == 1 && arg.items[0].Obj? then arg.items[0] else arg
  }

  /** `do_action` once the counter is bumped and the branch for "all" is
      behind it: an unregistered tag returns; otherwise the tag is pushed,
      its table sorted unless the flag says it already is, the flag set,
      every live entry called once with the first `accepted_args` arguments
      and the tag popped again. */
  function ActionPass(h: Hooks, tag: string, args: seq<Value>): (o: Outcome)
    ensures o.Returned? && o.value == Null
    ensures tag !in h.filters ==> o == Returned(Null, [], h)
    ensures o.reg.stack == h.stack && o.reg.actions == h.actions && o.reg.filters.Keys == h.filters.Keys
    ensures tag in h.filters ==>
      && tag in o.reg.merged
      && (forall p :: FindLevel(o.reg.filters[tag], p) == FindLevel(h.filters[tag], p))
      && |o.trace| == |Schedule(h, tag)|
      && forall i | 0 <= i < |o.trace| ::
        o.trace[i] == Invocation(Schedule(h, tag)[i].entry.callback,
                                 ArraySlice(args, 0, Schedule(h, tag)[i].entry.acceptedArgs),
                                 h.stack + [tag])
    ensures SortCacheSound(h) ==> SortCacheSound(o.reg)
  {
    if tag !in h.filters then Returned(Null, [], h)
    else
      var t := CachedSort(h, tag);
      var tr := ActionTrace(Flatten(t), args, h.stack + [tag]);
      Returned(Null, tr, WithSorted(h, tag, t, true))
  }

  /** `do_action($tag, $arg, ...$more)`; a call without `$arg` passes the
      default ''. Returns null. */
  function DoAction(h: Hooks, tag: string, arg: Value, more: seq<Value>): (o: Outcome)
    ensures DidAction(o.reg, tag) == DidAction(h, tag) + 1
    ensures forall x | x != tag :: DidAction(o.reg, x) == DidAction(h, x)
    ensures AllTag in h.filters ==> o == Raised(Push(Fire(h, tag), tag))
    ensures AllTag !in h.filters ==> o == ActionPass(Fire(h, tag), tag, [Unwrap(arg)] + more)
    ensures AllTag !in h.filters ==> o.Returned? && o.value == Null
    ensures AllTag !in h.filters && tag !in h.filters ==> o.trace == [] && o.reg == Fire(h, tag)
    ensures o.Returned? ==> o.reg.stack == h.stack && o.reg.filters.Keys == h.filters.Keys
    ensures o.Returned? && tag in h.filters ==>
      && tag in o.reg.merged
      && (forall p :: FindLevel(o.reg.filters[tag], p) == FindLevel(h.filters[tag], p))
      && |o.trace| == |Schedule(h, tag)|
      && forall i | 0 <= i < |o.trace| ::
        o.trace[i] == Invocation(Schedule(h, tag)[i].entry.callback,
                                 ArraySlice([Unwrap(arg)] + more, 0, Schedule(h, tag)[i].entry.acceptedArgs),
                                 h.stack + [tag])
    ensures SortCacheSound(h) ==> SortCacheSound(o.reg)
  {
    var h1 := Fire(h, tag);
    assert tag in h.filters ==> CachedSort(h1, tag) == CachedSort(h, tag);
    if AllTag in h.filters then Raised(Push(h1, tag))
    else ActionPass(h1, tag, [Unwrap(arg)] + more)
  }

  /** `do_action($tag, array($obj))` is `do_action($tag, $obj)`: the
      callbacks see the object itself either way. */
  lemma DoActionUnwrapsObject(h: Hooks, tag: string, o: ObjId, more: seq<Value>)
    ensures DoAction(h, tag, Arr([Obj(o)]), more) == DoAction(h, tag, Obj(o), more)
  {
  }

  /** `do_action_ref_array($tag, $args)`. Its sort flag lives in a local
      variable that is never set, so the table is sorted on every call and
      the tag's flag is left as it was. */
  function DoActionRefArray(h: Hooks, tag: string, args: seq<Value>): (o: Outcome)
    ensures DidAction(o.reg, tag) == DidAction(h, tag) + 1
    ensures forall x | x != tag :: DidAction(o.reg, x) == DidAction(h, x)
    ensures AllTag in h.filters ==> o == Raised(Push(Fire(h, tag), tag))
    ensures AllTag !in h.filters ==> o.Returned? && o.value == Null
    ensures AllTag !in h.filters && tag !in h.filters ==> o.trace == [] && o.reg == Fire(h, tag)
    ensures o.Returned? ==> o.reg.stack == h.stack && o.reg.merged == h.merged && o.reg.filters.Keys == h.filters.Keys
    ensures o.Returned? && tag in h.filters ==>
      && Sorted(o.reg.filters[tag])
      && (forall p :: FindLevel(o.reg.filters[tag], p) == FindLevel(h.filters[tag], p))
      && |o.trace| == |Live(Flatten(Ksort(h.filters[tag])))|
      && forall i | 0 <= i < |o.trace| ::
        o.trace[i] == Invocation(Live(Flatten(Ksort(h.filters[tag])))[i].entry.callback,
                                 ArraySlice(args, 0, Live(Flatten(Ksort(h.filters[tag])))[i].entry.acceptedArgs),
                                 h.stack + [tag])
    ensures SortCacheSound(h) ==> SortCacheSound(o.reg)
  {
    var h1 := Fire(h, tag);
    if AllTag in h.filters then Raised(Push(h1, tag))
    else if tag !in h.filters then Returned(Null, [], h1)
    else
      var t := Ksort(h1.filters[tag]);
      KsortKeepsLevels(h1.filters[tag]);
      var tr := ActionTrace(Flatten(t), args, h.stack + [tag]);
      Returned(Null, tr, WithSorted(h1, tag, t, false))
  }

  // ---------------------------------------------------------------------
  // Properties of the dispatch order.

  lemma AscendingCons(x: Scheduled, rest: seq<Scheduled>)
    requires Ascending(rest)
    requires forall m | m in rest :: x.priority <= m.priority
    ensures Ascending([x] + rest)
  {
    var r := [x] + rest;
    forall i, j | 0 <= i < j < |r| ensures r[i].priority <= r[j].priority {
      assert r[j] == rest[j - 1] && r[j] in rest;
      if i > 0 {
        assert r[i] == rest[i - 1];
      }
    }
  }

  /** Skipping null entries keeps a schedule ascending. */
  lemma {:induction false} LiveAscending(sched: seq<Scheduled>)
    requires Ascending(sched)
    ensures Ascending(Live(sched))
  {
    if sched != [] {
      assert Ascending(sched[1..]);
      LiveAscending(sched[1..]);
      var rest := Live(sched[1..]);
      if !sched[0].entry.callback.NullFn? {
        forall m | m in rest ensures sched[0].priority <= m.priority {
          var k :| 0 <= k < |rest| && rest[k] == m;
          assert m in sched[1..];
          var j :| 0 <= j < |sched[1..]| && sched[1..][j] == m;
          assert sched[j + 1] == m;
        }
        AscendingCons(sched[0], rest);
      }
    }
  }

  /** With a sound sort cache, a trigger calls the entries of a lower
      priority before those of a higher one. */
  lemma ScheduleAscending(h: Hooks, tag: string)
    requires SortCacheSound(h) && tag in h.filters
    ensures Ascending(Schedule(h, tag))
  {
    FlattenAscending(CachedSort(h, tag));
    LiveAscending(Flatten(CachedSort(h, tag)));
  }

  /** Every registered entry that is not null is called by a trigger of its
      tag, at the priority it is stored under. */
  lemma ScheduleComplete(h: Hooks, tag: string, p: int, f: Callable)
    requires tag in h.filters
    requires Registered(h, tag, p, f).Some? && !Registered(h, tag, p, f).value.callback.NullFn?
    ensures Scheduled(p, Registered(h, tag, p, f).value) in Schedule(h, tag)
  {
    var t := CachedSort(h, tag);
    assert FindLevel(t, p) == FindLevel(h.filters[tag], p);
    FlattenComplete(t, p, ArrayKey(f));
  }

  /** The converse of `ScheduleComplete`: a trigger calls nothing but live
      registrations of its tag, each at the priority it is registered at. */
  lemma ScheduleSound(h: Hooks, tag: string, x: Scheduled)
    requires tag in h.filters && x in Schedule(h, tag)
    ensures !x.entry.callback.NullFn?
    ensures exists f :: Registered(h, tag, x.priority, f) == Some(x.entry)
  {
    var t := CachedSort(h, tag);
    var key := FlattenSound(t, x);
    assert FindLevel(t, x.priority) == FindLevel(h.filters[tag], x.priority);
    assert ArrayKey(Named(key)) == key;
    assert Registered(h, tag, x.priority, Named(key)) == Some(x.entry);
  }

  /** A trigger walks each registration of its tag once: the walk it filters
      for null callables has one item per registration. */
  lemma ScheduleCount(h: Hooks, tag: string)
    requires tag in h.filters
    ensures |Flatten(CachedSort(h, tag))| == Size(h.filters[tag])
  {
    FlattenCount(CachedSort(h, tag));
    if tag !in h.merged {
      KsortSize(h.filters[tag]);
    }
  }

  /** Functions at one priority run in the order they were added: once a
      callable new to that priority is added, a trigger of the tag reaches
      it after every live entry that was already there. */
  lemma AddedRunsAfter(h: Hooks, tag: string, f: Callable, p: int, n: int)
    requires !f.NullFn? && Registered(h, tag, p, f).None?
    ensures var h' := AddFilter(h, tag, f, p, n).reg;
      && tag in h'.filters
      && (exists k :: 0 <= k < |Schedule(h', tag)| && Schedule(h', tag)[k] == Scheduled(p, Entry(f, n))
           && forall g | Registered(h, tag, p, g).Some? && !Registered(h, tag, p, g).value.callback.NullFn? ::
                Scheduled(p, Registered(h, tag, p, g).value) in Schedule(h', tag)[..k])
  {
    var h' := AddFilter(h, tag, f, p, n).reg;
    var s := LevelOf(TableOf(h, tag), p);
    var y := Scheduled(p, Entry(f, n));
    var pre := AddedSchedule(h, tag, f, p, n);
    var S := Schedule(h', tag);
    PrefixParts(S, pre, y);
    forall g | Registered(h, tag, p, g).Some? && !Registered(h, tag, p, g).value.callback.NullFn?
      ensures Scheduled(p, Registered(h, tag, p, g).value) in S[..|pre|]
    {
      OldEntryScheduled(TableOf(h, tag), p, Registered(h, tag, p, g).value, ArrayKey(g));
    }
  }

  lemma PrefixParts(S: seq<Scheduled>, pre: seq<Scheduled>, y: Scheduled)
    requires |pre| < |S| && S[..|pre| + 1] == pre + [y]
    ensures S[|pre|] == y && S[..|pre|] == pre
  {
    assert S[..|pre| + 1][|pre|] == S[|pre|];
    assert S[..|pre| + 1][..|pre|] == S[..|pre|];
  }

  /** The schedule after adding a fresh callable at `p`: some prefix that
      holds the live entries of the old level at `p`, then the new entry. */
  lemma AddedSchedule(h: Hooks, tag: string, f: Callable, p: int, n: int) returns (pre: seq<Scheduled>)
    requires !f.NullFn? && Registered(h, tag, p, f).None?
    ensures var h' := AddFilter(h, tag, f, p, n).reg;
      && tag in h'.filters
      && |pre| < |Schedule(h', tag)|
      && Schedule(h', tag)[..|pre| + 1] == pre + [Scheduled(p, Entry(f, n))]
      && forall m | m in Live(LevelItems(Level(p, LevelOf(TableOf(h, tag), p)))) :: m in pre
  {
    AddedLevel(h, tag, f, p, n);
    var h' := AddFilter(h, tag, f, p, n).reg;
    pre := WalkAround(CachedSort(h', tag), p, LevelOf(TableOf(h, tag), p), Slot(ArrayKey(f), Entry(f, n)));
  }

  /** After the add, the table a trigger walks holds the old level at `p`
      with the new slot at its end. */
  lemma AddedLevel(h: Hooks, tag: string, f: Callable, p: int, n: int)
    requires Registered(h, tag, p, f).None?
    ensures var h' := AddFilter(h, tag, f, p, n).reg;
      && tag in h'.filters
      && FindLevel(CachedSort(h', tag), p) == Some(LevelOf(TableOf(h, tag), p) + [Slot(ArrayKey(f), Entry(f, n))])
  {
    var h' := AddFilter(h, tag, f, p, n).reg;
    assert FindLevel(h'.filters[tag], p).Some?;
    assert FindLevel(CachedSort(h', tag), p) == FindLevel(h'.filters[tag], p);
  }

  /** The live walk of a table whose level at `p` ends with a non-null
      slot `x`: a prefix holding the level's earlier live entries, then `x`. */
  lemma WalkAround(u: seq<Level>, p: int, s: seq<Slot>, x: Slot) returns (pre: seq<Scheduled>)
    requires FindLevel(u, p) == Some(s + [x]) && !x.entry.callback.NullFn?
    ensures |pre| < |Live(Flatten(u))|
    ensures Live(Flatten(u))[..|pre| + 1] == pre + [Scheduled(p, x.entry)]
    ensures forall m | m in Live(LevelItems(Level(p, s))) :: m in pre
  {
    var before, after := FlattenAround(u, p, s, x);
    var mid := LevelItems(Level(p, s));
    var y := Scheduled(p, x.entry);
    LiveAround(before, mid, y, after);
    pre := Live(before) + Live(mid);
    assert Live(Flatten(u)) == (pre + [y]) + Live(after);
  }

  lemma LiveAround(before: seq<Scheduled>, mid: seq<Scheduled>, y: Scheduled, after: seq<Scheduled>)
    requires !y.entry.callback.NullFn?
    ensures Live(before + mid + [y] + after) == Live(before) + Live(mid) + [y] + Live(after)
  {
    LiveAppend(before + mid + [y], after);
    LiveAppend(before + mid, [y]);
    LiveAppend(before, mid);
    LiveOne(y);
  }

  /** A live entry stored at `p` is among the live entries of that level. */
  lemma OldEntryScheduled(t: seq<Level>, p: int, e: Entry, key: string)
    requires Lookup(t, p, key) == Some(e) && !e.callback.NullFn?
    ensures Scheduled(p, e) in Live(LevelItems(Level(p, LevelOf(t, p))))
  {
    var s := LevelOf(t, p);
    assert Get(s, key) == Some(e);
    SlotScheduled(p, s, Slot(key, e));
  }

  /** Skipping the sort for a flagged tag is sound: under a sound cache the
      table walked is exactly what `ksort` would have produced. */
  lemma CachedSortIsKsort(h: Hooks, tag: string)
    requires SortCacheSound(h) && tag in h.filters
    ensures CachedSort(h, tag) == Ksort(h.filters[tag])
  {
    if tag in h.merged {
      KsortSorted(h.filters[tag]);
    }
  }

  /** Two callables added in turn at one priority of a tag that had no
      entries run in the order they were added, the second one filtering
      what the first returned. */
  lemma FiltersRunInRegistrationOrder(h: Hooks, tag: string, f: Callable, g: Callable, p: int, value: Value, call: Callback)
    requires AllTag !in h.filters && tag != AllTag && tag !in h.filters
    requires !f.NullFn? && !g.NullFn? && ArrayKey(f) != ArrayKey(g)
    ensures var h2 := AddFilter(AddFilter(h, tag, f, p, 1).reg, tag, g, p, 1).reg;
      && ApplyFilters(h2, tag, value, [], call).Returned?
      && ApplyFilters(h2, tag, value, [], call).value == call(g, [call(f, [value])])
  {
    var h1 := AddFilter(h, tag, f, p, 1).reg;
    AddLeavesTagOut(h, tag, f, p, AllTag);
    var h2 := AddFilter(h1, tag, g, p, 1).reg;
    AddLeavesTagOut(h1, tag, g, p, AllTag);
    TwoAddsSchedule(h, tag, f, g, p);
    ApplyTwo(h2, tag, f, p, g, p, value, call);
  }

  lemma ApplyTwo(h: Hooks, tag: string, f: Callable, p: int, g: Callable, q: int, value: Value, call: Callback)
    requires AllTag !in h.filters && tag in h.filters
    requires Schedule(h, tag) == [Scheduled(p, Entry(f, 1)), Scheduled(q, Entry(g, 1))]
    ensures ApplyFilters(h, tag, value, [], call).Returned?
    ensures ApplyFilters(h, tag, value, [], call).value == call(g, [call(f, [value])])
  {
    FilterPassTwo(h, tag, f, p, g, q, value, call);
  }

  lemma AddLeavesTagOut(h: Hooks, tag: string, f: Callable, p: int, other: string)
    requires other != tag && other !in h.filters
    ensures other !in AddFilter(h, tag, f, p, 1).reg.filters
  {
    var h1 := AddFilter(h, tag, f, p, 1).reg;
    assert other !in h.filters - {tag} && h1.filters - {tag} == h.filters - {tag};
  }

  /** The schedule left by two adds at one priority of a tag with no table. */
  lemma TwoAddsSchedule(h: Hooks, tag: string, f: Callable, g: Callable, p: int)
    requires tag !in h.filters
    requires !f.NullFn? && !g.NullFn? && ArrayKey(f) != ArrayKey(g)
    ensures var h2 := AddFilter(AddFilter(h, tag, f, p, 1).reg, tag, g, p, 1).reg;
      && tag in h2.filters
      && Schedule(h2, tag) == [Scheduled(p, Entry(f, 1)), Scheduled(p, Entry(g, 1))]
  {
    var kf, kg := ArrayKey(f), ArrayKey(g);
    var h1 := AddFilter(h, tag, f, p, 1).reg;
    var t1 := Store([], p, kf, Entry(f, 1));
    assert h1.filters[tag] == t1;
    var h2 := AddFilter(h1, tag, g, p, 1).reg;
    var t2 := Store(t1, p, kg, Entry(g, 1));
    assert h2.filters[tag] == t2;
    TwoStores(p, kf, Entry(f, 1), kg, Entry(g, 1));
    assert tag !in h2.merged;
    assert CachedSort(h2, tag) == t2;
    LiveTwo(Scheduled(p, Entry(f, 1)), Scheduled(p, Entry(g, 1)));
  }

  lemma LiveTwo(x: Scheduled, y: Scheduled)
    requires !x.entry.callback.NullFn? && !y.entry.callback.NullFn?
    ensures Live([x, y]) == [x, y]
  {
    assert [x, y][1..] == [y];
    assert [y][1..] == [];
  }

  /** A filter pass over two one-argument entries composes them. */
  lemma FilterPassTwo(h: Hooks, tag: string, f: Callable, p: int, g: Callable, q: int, value: Value, call: Callback)
    requires tag in h.filters
    requires Schedule(h, tag) == [Scheduled(p, Entry(f, 1)), Scheduled(q, Entry(g, 1))]
    ensures FilterPass(h, tag, value, [], call).value == call(g, [call(f, [value])])
  {
    FilterPassCalls(h, tag, value, [], call);
    var o := FilterPass(h, tag, value, [], call);
    assert |o.trace| == 2;
    assert o.trace[0].args == [value];
    assert o.trace[1].args == [call(f, [value])];
  }

  /** Inside every callback `do_action` runs, `current_filter()` names the
      action being fired, and once it returns the stack is as it was. */
  lemma CurrentFilterDuringAction(h: Hooks, tag: string, arg: Value, more: seq<Value>, i: nat)
    requires AllTag !in h.filters && tag in h.filters
    requires i < |DoAction(h, tag, arg, more).trace|
    ensures var o := DoAction(h, tag, arg, more);
      && CurrentFilter(o.reg.(stack := o.trace[i].stack)) == Str(tag)
      && CurrentFilter(o.reg) == CurrentFilter(h)
  {
  }
}

=== FILE: findings.dfy ===
/** Three places where `Hooks` does not do what its documentation says, each
    shown on a concrete registry, next to the behaviour the documentation
    describes with that behaviour's promise proved. */
module Findings {
  import opened Php
  import opened Callables
  import opened PriorityTable
  import opened Registry
  import opened Dispatch

  // ---------------------------------------------------------------------
  // `has_filter` tests the key for truthiness, not for being built.

  /** `has_filter($tag, $f)` with the key tested against `null` instead of
      by truthiness: a registered callable is found whatever its key. */
  function HasFilterIntended(h: Hooks, tag: string, check: Option<Callable>): (r: Value)
    ensures check.None? || tag !in h.filters ==> r == Bool(tag in h.filters)
    ensures check.Some? && r.Int? ==> Registered(h, tag, r.i, check.value).Some?
    ensures check.Some? && tag in h.filters && BuildUniqueId(check.value).Some? ==>
      (r == Bool(false) <==> forall q :: Registered(h, tag, q, check.value).None?)
    ensures check.Some? && BuildUniqueId(check.value).None? ==> r == Bool(false)
    ensures check.Some? && r.Int? && Sorted(TableOf(h, tag)) ==>
      forall q | Registered(h, tag, q, check.value).Some? :: r.i <= q
  {
    var has := tag in h.filters;
    if check.None? || !has then Bool(has)
    else match BuildUniqueId(check.value)
      case None => Bool(false)
      case Some(key) =>
        match FirstPriorityWith(h.filters[tag], key)
        case None => Bool(false)
        case Some(p) => Int(p)
  }

  /** The two differ only on keys PHP reads as false. */
  lemma HasFilterAgrees(h: Hooks, tag: string, check: Option<Callable>)
    requires check.Some? ==> !Falsy(ArrayKey(check.value))
    ensures HasFilter(h, tag, check) == HasFilterIntended(h, tag, check)
  {
  }

  /** A callable named "0", registered at priority 10, is reported absent by
      `has_filter` as written and found at 10 by the intended check. */
  lemma {:induction false} HasFilterMissesKeyZero()
    ensures var h := AddFilter(Fresh, "t", Named("0"), 10, 1).reg;
      && Registered(h, "t", 10, Named("0")) == Some(Entry(Named("0"), 1))
      && HasFilter(h, "t", Some(Named("0"))) == Bool(false)
      && HasFilterIntended(h, "t", Some(Named("0"))) == Int(10)
  {
    var h := AddFilter(Fresh, "t", Named("0"), 10, 1).reg;
    var t := Store([], 10, "0", Entry(Named("0"), 1));
    assert t == [Level(10, [Slot("0", Entry(Named("0"), 1))])];
    assert h.filters["t"] == t;
    assert FirstLevelWith(t, "0") == Some(0);
  }

  // ---------------------------------------------------------------------
  // `remove_all_filters` with a priority the tag does not have.

  /** `remove_all_filters($tag, $priority)` removing only the priority it is
      given: a priority the tag does not have leaves the table alone. */
  function RemoveAllFiltersIntended(h: Hooks, tag: string, priority: Option<int>): (u: Update)
    ensures u.ok
    ensures u.reg.merged == h.merged - {tag}
    ensures priority.None? ==> tag !in u.reg.filters
    ensures priority.Some? ==> TableOf(u.reg, tag) == DropLevel(TableOf(h, tag), priority.value)
    ensures priority.Some? ==> (tag in u.reg.filters <==> tag in h.filters)
    ensures priority.Some? ==> forall q, k | q != priority.value :: Lookup(TableOf(u.reg, tag), q, k) == Lookup(TableOf(h, tag), q, k)
    ensures priority.Some? ==> forall k :: Lookup(TableOf(u.reg, tag), priority.value, k).None?
    ensures u.reg.filters - {tag} == h.filters - {tag}
    ensures u.reg.actions == h.actions && u.reg.stack == h.stack
    ensures SortCacheSound(h) ==> SortCacheSound(u.reg)
  {
    var h1 := h.(merged := h.merged - {tag});
    if tag !in h.filters then Update(h1, true)
    else if priority.None? then Update(h1.(filters := h.filters - {tag}), true)
    else
      var t := h.filters[tag];
      if FindLevel(t, priority.value).Some? then
        var t' := DropLevel(t, priority.value);
        DropLevelReads(t, priority.value);
        var h' := WithTable(h, tag, t');
        assert TableOf(h', tag) == t';
        Update(h', true)
      else
        DropLevelAbsent(t, priority.value);
        Update(h1, true)
  }

  /** The two agree unless a priority is given that an existing tag lacks. */
  lemma RemoveAllFiltersAgrees(h: Hooks, tag: string, priority: Option<int>)
    requires tag in h.filters && priority.Some? ==> FindLevel(h.filters[tag], priority.value).Some?
    ensures RemoveAllFilters(h, tag, priority) == RemoveAllFiltersIntended(h, tag, priority)
  {
  }

  /** One filter at priority 10; clearing priority 99, which the tag does not
      have, deletes that filter as written and keeps it as intended. */
  lemma {:induction false} RemoveAllFiltersDropsOtherLevels()
    ensures var h := AddFilter(Fresh, "t", Named("f"), 10, 1).reg;
      && Registered(h, "t", 10, Named("f")).Some?
      && Registered(RemoveAllFilters(h, "t", Some(99)).reg, "t", 10, Named("f")).None?
      && HasFilter(RemoveAllFilters(h, "t", Some(99)).reg, "t", None) == Bool(false)
      && Registered(RemoveAllFiltersIntended(h, "t", Some(99)).reg, "t", 10, Named("f")).Some?
  {
    var h := AddFilter(Fresh, "t", Named("f"), 10, 1).reg;
    var t := Store([], 10, "f", Entry(Named("f"), 1));
    assert t == [Level(10, [Slot("f", Entry(Named("f"), 1))])];
    assert h.filters["t"] == t;
    assert FindLevel(t, 99).None?;
  }

  // ---------------------------------------------------------------------
  // The triggers call `_call_all_hook`; the class defines `__call_all_hook`.

  /** `__call_all_hook($args)`: every live entry under "all", in the table's
      array order (it is never sorted), called with the whole argument list
      of the trigger; results are dropped. */
  function AllHookCalls(sched: seq<Scheduled>, args: seq<Value>, stack: seq<string>): (tr: seq<Invocation>)
    ensures |tr| == |Live(sched)|
    ensures forall i | 0 <= i < |tr| :: tr[i] == Invocation(Live(sched)[i].entry.callback, args, stack)
  {
    if sched == [] then []
    else if sched[0].entry.callback.NullFn? then AllHookCalls(sched[1..], args, stack)
    else [Invocation(sched[0].entry.callback, args, stack)] + AllHookCalls(sched[1..], args, stack)
  }

  /** The calls the "all" hook makes for a trigger of `tag` with `args`,
      none when nothing is registered under "all". */
  function Prelude(h: Hooks, tag: string, args: seq<Value>): (tr: seq<Invocation>)
    ensures AllTag !in h.filters ==> tr == []
    ensures AllTag in h.filters ==> |tr| == |Live(Flatten(h.filters[AllTag]))|
    ensures forall i | 0 <= i < |tr| :: tr[i].args == args && tr[i].stack == h.stack + [tag]
    ensures AllTag in h.filters ==>
      forall i | 0 <= i < |tr| :: tr[i].callee == Live(Flatten(h.filters[AllTag]))[i].entry.callback
  {
    if AllTag in h.filters then AllHookCalls(Flatten(h.filters[AllTag]), args, h.stack + [tag]) else []
  }

  /** `apply_filters` calling the hook the class defines: the "all" entries
      run first with `[$tag, $value, ...$extra]`, then the filter pass runs
      as it would with no "all" entries at all. */
  function ApplyFiltersIntended(h: Hooks, tag: string, value: Value, extra: seq<Value>, call: Callback): (o: Outcome)
    ensures o.Returned?
    ensures AllTag !in h.filters ==> o == ApplyFilters(h, tag, value, extra, call)
    ensures var pre := Prelude(h, tag, [Str(tag), value] + extra);
      var pass := FilterPass(h, tag, value, extra, call);
      && o.trace == pre + pass.trace
      && o.value == pass.value && o.reg == pass.reg
    ensures o.reg.stack == h.stack
  {
    var pass := FilterPass(h, tag, value, extra, call);
    var pre := Prelude(h, tag, [Str(tag), value] + extra);
    assert AllTag !in h.filters ==> pre + pass.trace == pass.trace;
    Returned(pass.value, pre + pass.trace, pass.reg)
  }

  /** `do_action` calling the hook the class defines: the counter is bumped,
      the "all" entries run with `[$tag, $arg, ...$more]`, then the action
      pass runs as it would with no "all" entries at all. */
  function DoActionIntended(h: Hooks, tag: string, arg: Value, more: seq<Value>): (o: Outcome)
    ensures o.Returned? && o.value == Null
    ensures AllTag !in h.filters ==> o == DoAction(h, tag, arg, more)
    ensures DidAction(o.reg, tag) == DidAction(h, tag) + 1
    ensures var pre := Prelude(h, tag, [Str(tag), arg] + more);
      var pass := ActionPass(Fire(h, tag), tag, [Unwrap(arg)] + more);
      && o.trace == pre + pass.trace
      && o.reg == pass.reg
    ensures o.reg.stack == h.stack
  {
    var h1 := Fire(h, tag);
    var pass := ActionPass(h1, tag, [Unwrap(arg)] + more);
    Returned(Null, Prelude(h, tag, [Str(tag), arg] + more) + pass.trace, pass.reg)
  }

  /** One "all" entry and nothing under "t": `apply_filters('t', 'x')` and
      `do_action('t', 'x')` stop with an error as written, while the intended
      triggers call the entry with the whole argument list and return. */
  lemma {:induction false} AllHookIsUndefined(call: Callback)
    ensures var h := AddFilter(Fresh, AllTag, Named("log"), 10, 1).reg;
      && ApplyFilters(h, "t", Str("x"), [], call).Raised?
      && DoAction(h, "t", Str("x"), []).Raised?
      && ApplyFiltersIntended(h, "t", Str("x"), [], call) == Returned(Str("x"), [Invocation(Named("log"), [Str("t"), Str("x")], ["t"])], h)
      && DoActionIntended(h, "t", Str("x"), []).trace == [Invocation(Named("log"), [Str("t"), Str("x")], ["t"])]
  {
    var h := AddFilter(Fresh, AllTag, Named("log"), 10, 1).reg;
    var t := Store([], 10, "log", Entry(Named("log"), 1));
    assert t == [Level(10, [Slot("log", Entry(Named("log"), 1))])];
    assert h.filters[AllTag] == t;
    assert Flatten(t) == [Scheduled(10, Entry(Named("log"), 1))];
    assert Live(Flatten(t)) == Flatten(t);
    assert "t" !in h.filters && h.stack == [];
    var log := Invocation(Named("log"), [Str("t"), Str("x")], ["t"]);
    assert [Str("t"), Str("x")] + [] == [Str("t"), Str("x")];
    var pre := Prelude(h, "t", [Str("t"), Str("x")]);
    assert |pre| == 1 && pre[0] == log;
    assert pre == [log];
    assert FilterPass(h, "t", Str("x"), [], call) == Returned(Str("x"), [], h);
    assert ApplyFiltersIntended(h, "t", Str("x"), [], call).trace == pre + [];
  }
}

=== FILE: php.dfy ===
/** The few pieces of PHP's runtime that the hook registry leans on: a value
    type, `array_slice` on lists, the identity hash `spl_object_hash`, and an
    Option type for the "no result" answers. */
module Php {

  datatype Option<+T> = None | Some(value: T)

  function Min(a: int, b: int): int { if a <= b then a else b }
  function Max(a: int, b: int): int { if a <= b then b else a }

  /** Sequences without repeated elements (PHP array keys are unique). */
  predicate Distinct<T(==)>(xs: seq<T>) {
    forall i, j | 0 <= i < j < |xs| :: xs[i] != xs[j]
  }

  lemma DistinctCons<T>(x: T, xs: seq<T>)
    ensures Distinct([x] + xs) <==> x !in xs && Distinct(xs)
  {
    var ys := [x] + xs;
    if Distinct(ys) {
      forall i, j | 0 <= i < j < |xs| ensures xs[i] != xs[j] {
        assert ys[i + 1] == xs[i] && ys[j + 1] == xs[j];
      }
      forall k | 0 <= k < |xs| ensures xs[k] != x {
        assert ys[k + 1] == xs[k] && ys[0] == x;
      }
    }
    if x !in xs && Distinct(xs) {
      forall i, j | 0 <= i < j < |ys| ensures ys[i] != ys[j] {
        assert ys[j] == xs[j - 1];
        if i > 0 {
          assert ys[i] == xs[i - 1];
        }
      }
    }
  }

  /** An element of a sequence without repeats occurs neither before nor
      after its own position. */
  lemma DistinctOnce<T>(xs: seq<T>, i: nat)
    requires Distinct(xs) && i < |xs|
    ensures xs[i] !in xs[..i] && xs[i] !in xs[i + 1..]
  {
    var before, after := xs[..i], xs[i + 1..];
    forall j | 0 <= j < |before| ensures before[j] != xs[i] {
      assert before[j] == xs[j];
    }
    forall j | 0 <= j < |after| ensures after[j] != xs[i] {
      assert after[j] == xs[i + 1 + j];
    }
  }

  lemma DistinctSame<T>(xs: seq<T>, a: nat, b: nat)
    requires Distinct(xs) && a < |xs| && b < |xs| && xs[a] == xs[b]
    ensures a == b
  {
  }

  /** `xs` with every occurrence of `x` left out and the rest in their
      order: what `unset` does to the list of an array's keys. */
  function Without<T(==)>(xs: seq<T>, x: T): (r: seq<T>)
    ensures forall i | 0 <= i < |r| :: r[i] in xs && r[i] != x
    ensures forall i | 0 <= i < |xs| && xs[i] != x :: xs[i] in r
  {
    if xs == [] then []
    else
      assert xs == [xs[0]] + xs[1..];
      if xs[0] == x then Without(xs[1..], x) else [xs[0]] + Without(xs[1..], x)
  }

  lemma {:induction false} WithoutAbsent<T>(xs: seq<T>, x: T)
    requires x !in xs
    ensures Without(xs, x) == xs
  {
    if xs != [] {
      assert xs[0] != x && x !in xs[1..];
      WithoutAbsent(xs[1..], x);
      assert xs == [xs[0]] + xs[1..];
    }
  }

  /** In a sequence without repeats, leaving out an element cuts out exactly
      its one position. */
  lemma {:induction false} WithoutAt<T>(xs: seq<T>, i: nat)
    requires Distinct(xs) && i < |xs|
    ensures Without(xs, xs[i]) == xs[..i] + xs[i + 1..]
  {
    var x, tail := xs[i], xs[1..];
    DistinctOnce(xs, i);
    if i == 0 {
      WithoutAbsent(tail, x);
    } else {
      assert xs[0] != x;
      assert Without(xs, x) == [xs[0]] + Without(tail, x);
      DistinctTail(xs);
      assert tail[i - 1] == x;
      WithoutAt(tail, i - 1);
      ShiftCut(xs, i);
    }
  }

  lemma DistinctTail<T>(xs: seq<T>)
    requires Distinct(xs) && xs != []
    ensures Distinct(xs[1..])
  {
    var tail := xs[1..];
    forall a, b | 0 <= a < b < |tail| ensures tail[a] != tail[b] {
      assert tail[a] == xs[a + 1] && tail[b] == xs[b + 1];
    }
  }

  lemma ShiftCut<T>(xs: seq<T>, i: nat)
    requires 0 < i < |xs|
    ensures [xs[0]] + (xs[1..][..i - 1] + xs[1..][i..]) == xs[..i] + xs[i + 1..]
  {
    assert xs[1..][..i - 1] == xs[1..i] && xs[1..][i..] == xs[i + 1..];
    assert [xs[0]] + xs[1..i] == xs[..i];
  }

  lemma DistinctAppend<T>(xs: seq<T>, x: T)
    requires Distinct(xs) && x !in xs
    ensures Distinct(xs + [x])
  {
  }

  /** Objects are known only by their identity. `spl_object_hash` renders it
      as 32 hexadecimal digits, so at most 16^32 objects can be told apart. */
  const HashWidth: nat := 32
  const ObjIdBound: nat := Pow16(HashWidth)
  type ObjId = x: nat | x < ObjIdBound

  /** A PHP value as far as the registry looks at it. */
  datatype Value =
    | Null
    | Bool(b: bool)
    | Int(i: int)
    | Str(s: string)
    | Obj(id: ObjId)
    | Arr(items: seq<Value>)

  /** PHP's `array_slice($a, $offset, $length)` on a list, for a non-negative
      offset: a non-negative length keeps at most that many elements, a
      negative one stops that many elements before the end. */
  function ArraySlice<T>(a: seq<T>, offset: nat, length: int): (r: seq<T>)
    ensures offset <= |a| ==> |r| <= |a| - offset && r == a[offset..][..|r|]
    ensures offset >= |a| ==> r == []
    ensures 0 <= length && offset <= |a| ==> |r| == Min(length, |a| - offset)
    ensures length < 0 && offset <= |a| ==> |r| == Max(0, |a| - offset + length)
  {
    if offset >= |a| then []
    else if length >= 0 then a[offset .. Min(offset + length, |a|)]
    else if |a| + length <= offset then []
    else a[offset .. |a| + length]
  }

  function Pow16(n: nat): (r: nat)
    ensures r >= 1
  {
    if n == 0 then 1 else 16 * Pow16(n - 1)
  }

  function HexDigit(d: nat): (c: char)
    requires d < 16
    ensures DigitValue(c) == d
  {
    if d < 10 then ('0' as int + d) as char else ('a' as int + d - 10) as char
  }

  function DigitValue(c: char): nat {
    if '0' <= c <= '9' then c as int - '0' as int
    else if 'a' <= c <= 'f' then c as int - 'a' as int + 10
    else 0
  }

  /** `n` written with exactly `width` lower-case hexadecimal digits. */
  function ToHex(n: nat, width: nat): (s: string)
    requires n < Pow16(width)
    ensures |s| == width
  {
    if width == 0 then ""
    else
      assert n / 16 < Pow16(width - 1);
      ToHex(n / 16, width - 1) + [HexDigit(n % 16)]
  }

  /** Reads a string of hexadecimal digits back as a number. */
  function FromHex(s: string): nat {
    if s == [] then 0 else FromHex(s[..|s| - 1]) * 16 + DigitValue(s[|s| - 1])
  }

  lemma {:induction false} FromHexToHex(n: nat, width: nat)
    requires n < Pow16(width)
    ensures FromHex(ToHex(n, width)) == n
  {
    if width > 0 {
      assert n / 16 < Pow16(width - 1);
      var s, last := ToHex(n, width), HexDigit(n % 16);
      assert s == ToHex(n / 16, width - 1) + [last];
      assert s[..|s| - 1] == ToHex(n / 16, width - 1) && s[|s| - 1] == last;
      FromHexToHex(n / 16, width - 1);
      assert FromHex(s) == (n / 16) * 16 + n % 16;
    }
  }

  /** `spl_object_hash($o)`: a fixed-width string from which the object's
      identity can be read back, so distinct objects hash differently. */
  function SplObjectHash(o: ObjId): (h: string)
    ensures |h| == HashWidth
    ensures FromHex(h) == o
  {
    FromHexToHex(o, HashWidth);
    ToHex(o, HashWidth)
  }

  lemma SplObjectHashInjective(a: ObjId, b: ObjId)
    ensures SplObjectHash(a) == SplObjectHash(b) <==> a == b
  {
  }
}

=== FILE: registry.dfy ===
/** The state of the `Hooks` class and its registration operations:
    `add_filter`, `remove_filter`, `remove_all_filters`, `has_filter`, the
    `*_action` aliases, `did_action` and `current_filter`. Each operation
    takes the registry and returns the registry it leaves behind. */
module Registry {
  import opened Php
  import opened Callables
  import opened PriorityTable

  /** The four arrays of the class. */
  datatype State = State(
    filters: map<string, seq<Level>>,  // $filters: tag -> priority -> key -> entry
    merged: set<string>,               // $merged_filters: tags sorted since their last change
    actions: map<string, nat>,         // $actions: how many times each action tag fired
    stack: seq<string>)                // $current_filter: tags being dispatched, innermost last

  predicate WellFormedState(s: State) {
    forall tag | tag in s.filters :: WellFormed(s.filters[tag])
  }

  /** Every state the class can reach keeps PHP's array shape: unique
      priorities and keys, no empty priority level. */
  type Hooks = s: State | WellFormedState(s) witness State(map[], {}, map[], [])

  const Fresh: Hooks := State(map[], {}, map[], [])

  /** What add/remove/remove_all hand back: the new registry and the
      method's boolean result. */
  datatype Update = Update(reg: Hooks, ok: bool)

  /** The sort cache never lies: a tag marked as merged has a sorted table. */
  predicate SortCacheSound(h: Hooks) {
    forall tag | tag in h.merged :: tag in h.filters && Sorted(h.filters[tag])
  }

  /** `$filters[$tag]`, with an unset tag read as an empty table. */
  function TableOf(h: Hooks, tag: string): seq<Level> {
    if tag in h.filters then h.filters[tag] else []
  }

  /** `$filters[$tag][$priority][$key]` for the key the callable is stored under. */
  function Registered(h: Hooks, tag: string, p: int, f: Callable): Option<Entry> {
    Lookup(TableOf(h, tag), p, ArrayKey(f))
  }

  /** The registry with a new table for `tag` and the tag's sort flag
      cleared, as every edit of a tag leaves it. */
  function WithTable(h: Hooks, tag: string, t: seq<Level>): (h': Hooks)
    requires WellFormed(t)
    ensures h'.filters == h.filters[tag := t] && h'.merged == h.merged - {tag}
    ensures h'.filters - {tag} == h.filters - {tag}
    ensures h'.actions == h.actions && h'.stack == h.stack
    ensures SortCacheSound(h) ==> SortCacheSound(h')
  {
    MapUpdateMinus(h.filters, tag, t);
    var h': State := h.(filters := h.filters[tag := t], merged := h.merged - {tag});
    assert WellFormedState(h') by {
      forall x | x in h'.filters ensures WellFormed(h'.filters[x]) {
        if x != tag {
          assert h'.filters[x] == h.filters[x];
        }
      }
    }
    h'
  }

  /** `add_filter($tag, $f, $priority, $accepted_args)`. */
  function AddFilter(h: Hooks, tag: string, f: Callable, priority: int, acceptedArgs: int): (u: Update)
    ensures u.ok
    ensures tag in u.reg.filters
    ensures Registered(u.reg, tag, priority, f) == Some(Entry(f, acceptedArgs))
    ensures forall q, k | q != priority || k != ArrayKey(f) ::
      Lookup(TableOf(u.reg, tag), q, k) == Lookup(TableOf(h, tag), q, k)
    ensures u.reg.filters - {tag} == h.filters - {tag}
    ensures Registered(h, tag, priority, f).Some? ==> Layout(TableOf(u.reg, tag)) == Layout(TableOf(h, tag))
    ensures Registered(h, tag, priority, f).None? ==>
      LevelOf(TableOf(u.reg, tag), priority) == LevelOf(TableOf(h, tag), priority) + [Slot(ArrayKey(f), Entry(f, acceptedArgs))]
    ensures forall q | q != priority :: FindLevel(TableOf(u.reg, tag), q) == FindLevel(TableOf(h, tag), q)
    ensures Priorities(TableOf(u.reg, tag)) ==
      if priority in Priorities(TableOf(h, tag)) then Priorities(TableOf(h, tag)) else Priorities(TableOf(h, tag)) + [priority]
    ensures u.reg.merged == h.merged - {tag}
    ensures u.reg.actions == h.actions && u.reg.stack == h.stack
    ensures SortCacheSound(h) ==> SortCacheSound(u.reg)
  {
    var t' := Store(TableOf(h, tag), priority, ArrayKey(f), Entry(f, acceptedArgs));
    var h' := WithTable(h, tag, t');
    assert TableOf(h', tag) == t';
    Update(h', true)
  }

  /** `remove_filter($tag, $f, $priority)`. */
  function RemoveFilter(h: Hooks, tag: string, f: Callable, priority: int): (u: Update)
    ensures u.ok <==> Registered(h, tag, priority, f).Some?
    ensures !u.ok ==> u.reg == h
    ensures u.ok ==> tag in u.reg.filters && Registered(u.reg, tag, priority, f).None?
    ensures u.ok ==> forall q, k | q != priority || k != ArrayKey(f) ::
      Lookup(TableOf(u.reg, tag), q, k) == Lookup(TableOf(h, tag), q, k)
    ensures u.ok ==> (FindLevel(TableOf(u.reg, tag), priority).None? <==> Keys(FindLevel(TableOf(h, tag), priority).value) == [ArrayKey(f)])
    ensures u.ok && FindLevel(TableOf(u.reg, tag), priority).Some? ==>
      FindLevel(TableOf(u.reg, tag), priority) == Some(RemoveKey(FindLevel(TableOf(h, tag), priority).value, ArrayKey(f)))
    ensures u.ok ==> forall q | q != priority :: FindLevel(TableOf(u.reg, tag), q) == FindLevel(TableOf(h, tag), q)
    ensures u.ok ==>
      Priorities(TableOf(u.reg, tag)) ==
      if FindLevel(TableOf(u.reg, tag), priority).None? then Without(Priorities(TableOf(h, tag)), priority) else Priorities(TableOf(h, tag))
    ensures u.reg.filters - {tag} == h.filters - {tag}
    ensures u.ok ==> u.reg.merged == h.merged - {tag}
    ensures u.reg.actions == h.actions && u.reg.stack == h.stack
    ensures SortCacheSound(h) ==> SortCacheSound(u.reg)
  {
    var key := ArrayKey(f);
    if Lookup(TableOf(h, tag), priority, key).None? then Update(h, false)
    else
      var t' := Unstore(h.filters[tag], priority, key);
      var h' := WithTable(h, tag, t');
      assert h'.filters[tag] == t' && TableOf(h', tag) == t';
      Update(h', true)
  }

  /** `remove_all_filters($tag, $priority)`; `None` stands for the default
      `false`. A priority that is given but not present falls through to
      the branch that deletes the whole tag. */
  function RemoveAllFilters(h: Hooks, tag: string, priority: Option<int>): (u: Update)
    ensures u.ok
    ensures u.reg.merged == h.merged - {tag}
    ensures priority.None? ==> tag !in u.reg.filters
    ensures priority.Some? && FindLevel(TableOf(h, tag), priority.value).Some? ==>
      && tag in u.reg.filters
      && FindLevel(u.reg.filters[tag], priority.value).None?
      && Priorities(u.reg.filters[tag]) == Without(Priorities(h.filters[tag]), priority.value)
      && forall q | q != priority.value :: FindLevel(u.reg.filters[tag], q) == FindLevel(h.filters[tag], q)
    ensures priority.Some? && FindLevel(TableOf(h, tag), priority.value).None? ==> tag !in u.reg.filters
    ensures u.reg.filters - {tag} == h.filters - {tag}
    ensures u.reg.actions == h.actions && u.reg.stack == h.stack
    ensures SortCacheSound(h) ==> SortCacheSound(u.reg)
  {
    var h1 := h.(merged := h.merged - {tag});
    if tag !in h.filters then Update(h1, true)
    else if priority.Some? && FindLevel(h.filters[tag], priority.value).Some? then
      Update(WithTable(h, tag, DropLevel(h.filters[tag], priority.value)), true)
    else
      Update(h1.(filters := h.filters - {tag}), true)
  }

  lemma MapUpdateMinus<K, V>(m: map<K, V>, k: K, v: V)
    ensures m[k := v] - {k} == m - {k}
  {
    assert (m[k := v] - {k}).Keys == (m - {k}).Keys;
  }

  lemma MapUpdateTwice<K, V>(m: map<K, V>, k: K, v1: V, v2: V)
    ensures m[k := v1][k := v2] == m[k := v2]
  {
  }

  /** Adding the same callable at the same tag and priority twice leaves one
      entry, where the first add put it, carrying the second add's fields. */
  lemma AddFilterTwice(h: Hooks, tag: string, f: Callable, priority: int, n1: int, n2: int)
    ensures AddFilter(AddFilter(h, tag, f, priority, n1).reg, tag, f, priority, n2) == AddFilter(h, tag, f, priority, n2)
  {
    var t := TableOf(h, tag);
    var key := ArrayKey(f);
    var t1 := Store(t, priority, key, Entry(f, n1));
    var h1 := WithTable(h, tag, t1);
    assert AddFilter(h, tag, f, priority, n1).reg == h1;
    assert TableOf(h1, tag) == t1;
    StoreTwice(t, priority, key, Entry(f, n1), Entry(f, n2));
    var t2 := Store(t, priority, key, Entry(f, n2));
    assert AddFilter(h1, tag, f, priority, n2).reg == WithTable(h1, tag, t2);
    WithTableTwice(h, tag, t1, t2);
  }

  lemma WithTableTwice(h: Hooks, tag: string, t1: seq<Level>, t2: seq<Level>)
    requires WellFormed(t1) && WellFormed(t2)
    ensures WithTable(WithTable(h, tag, t1), tag, t2) == WithTable(h, tag, t2)
  {
    MapUpdateTwice(h.filters, tag, t1, t2);
    assert h.merged - {tag} - {tag} == h.merged - {tag};
  }

  /** Removing what was just added restores the tag's table exactly; only
      the tag's key (now possibly with an empty table) and the dropped sort
      flag remain as traces of the pair. */
  lemma {:induction false} AddThenRemove(h: Hooks, tag: string, f: Callable, priority: int, n: int)
    requires Registered(h, tag, priority, f).None?
    ensures var u := RemoveFilter(AddFilter(h, tag, f, priority, n).reg, tag, f, priority);
      && u.ok
      && u.reg.filters == h.filters[tag := TableOf(h, tag)]
      && u.reg.merged == h.merged - {tag}
  {
    var t := TableOf(h, tag);
    var key := ArrayKey(f);
    StoreThenUnstore(t, priority, key, Entry(f, n));
    var g := WithTable(h, tag, Store(t, priority, key, Entry(f, n)));
    assert AddFilter(h, tag, f, priority, n).reg == g;
    RemoveFromTable(g, tag, f, priority);
    MapUpdateTwice(h.filters, tag, Store(t, priority, key, Entry(f, n)), t);
  }

  lemma RemoveFromTable(g: Hooks, tag: string, f: Callable, priority: int)
    requires tag in g.filters && Registered(g, tag, priority, f).Some?
    ensures RemoveFilter(g, tag, f, priority).ok
    ensures RemoveFilter(g, tag, f, priority).reg == WithTable(g, tag, Unstore(g.filters[tag], priority, ArrayKey(f)))
  {
  }

  /** PHP's loose falsiness of a string: only "" and "0" are false. */
  predicate Falsy(s: string) {
    s == "" || s == "0"
  }

  /** `has_filter($tag, $f)`; `None` stands for the default `false`. The
      answer is PHP's `true`/`false` or the priority the callable was found
      at: the first one in the table's current array order. */
  function HasFilter(h: Hooks, tag: string, check: Option<Callable>): (r: Value)
    ensures check.None? || tag !in h.filters ==> r == Bool(tag in h.filters)
    ensures check.Some? && tag in h.filters ==> r.Int? || r == Bool(false)
    ensures check.Some? && r.Int? ==> Registered(h, tag, r.i, check.value).Some?
    ensures check.Some? && r.Int? ==> FirstHolder(TableOf(h, tag), ArrayKey(check.value), r.i)
    ensures check.Some? && tag in h.filters && BuildUniqueId(check.value).Some? && !Falsy(ArrayKey(check.value)) ==>
      (r == Bool(false) <==> forall q :: Registered(h, tag, q, check.value).None?)
    ensures check.Some? && (BuildUniqueId(check.value).None? || Falsy(ArrayKey(check.value))) ==> r == Bool(false)
    ensures check.Some? && r.Int? && Sorted(TableOf(h, tag)) ==>
      forall q | Registered(h, tag, q, check.value).Some? :: r.i <= q
  {
    var has := tag in h.filters;
    if check.None? || !has then Bool(has)
    else match BuildUniqueId(check.value)
      case None => Bool(false)
      case Some(key) =>
        if Falsy(key) then Bool(false)
        else match FirstPriorityWith(h.filters[tag], key)
          case None => Bool(false)
          case Some(p) => Int(p)
  }

  /** On a table not yet sorted, `has_filter` reports the priority added
      first, not the lowest: after adding a callable at 20 and then at 10,
      the answer is 20. */
  lemma HasFilterFirstAdded()
    ensures var h := AddFilter(AddFilter(Fresh, "t", Named("f"), 20, 1).reg, "t", Named("f"), 10, 1).reg;
      && Registered(h, "t", 10, Named("f")).Some?
      && HasFilter(h, "t", Some(Named("f"))) == Int(20)
  {
    var e := Entry(Named("f"), 1);
    var h := AddFilter(AddFilter(Fresh, "t", Named("f"), 20, 1).reg, "t", Named("f"), 10, 1).reg;
    TwoPriorities(e);
    StoreTwoPriorities(20, 10, "f", e);
    HasFilterOnTwo(h, e);
  }

  lemma HasFilterOnTwo(h: Hooks, e: Entry)
    requires "t" in h.filters && h.filters["t"] == [Level(20, [Slot("f", e)]), Level(10, [Slot("f", e)])]
    ensures Registered(h, "t", 10, Named("f")).Some? && HasFilter(h, "t", Some(Named("f"))) == Int(20)
  {
    assert ArrayKey(Named("f")) == "f";
    assert FirstLevelWith(h.filters["t"], "f") == Some(0);
  }

  lemma TwoPriorities(e: Entry)
    ensures AddFilter(AddFilter(Fresh, "t", e.callback, 20, e.acceptedArgs).reg, "t", e.callback, 10, e.acceptedArgs).reg.filters["t"]
      == Store(Store([], 20, ArrayKey(e.callback), e), 10, ArrayKey(e.callback), e)
  {
  }

  /** After `remove_all_filters($tag)` nothing is registered under the tag,
      with or without a callable to look for. */
  lemma RemoveAllThenHasFilter(h: Hooks, tag: string, check: Option<Callable>)
    ensures HasFilter(RemoveAllFilters(h, tag, None).reg, tag, check) == Bool(false)
  {
  }

  /** Removing a registration, even the tag's last one, keeps the tag:
      `has_filter` without a callable still answers true. */
  lemma RemoveFilterKeepsTag(h: Hooks, tag: string, f: Callable, priority: int)
    requires Registered(h, tag, priority, f).Some?
    ensures HasFilter(RemoveFilter(h, tag, f, priority).reg, tag, None) == Bool(true)
  {
  }

  /** A null callback, a callable of no recognised shape and the function
      named "" share the key "": each add overwrites the others' entry. */
  lemma EmptyKeyShared(h: Hooks, tag: string, f: Callable, g: Callable, priority: int, n: int)
    requires ArrayKey(f) == "" && ArrayKey(g) == ""
    ensures Registered(AddFilter(h, tag, f, priority, n).reg, tag, priority, g) == Some(Entry(f, n))
    ensures Registered(AddFilter(h, tag, NullFn, priority, n).reg, tag, priority, Named("")) == Some(Entry(NullFn, n))
  {
  }

  /** `add_action`: the same operation as `add_filter`. */
  function AddAction(h: Hooks, tag: string, f: Callable, priority: int, acceptedArgs: int): (u: Update)
    ensures u.ok && Registered(u.reg, tag, priority, f) == Some(Entry(f, acceptedArgs))
    ensures u == AddFilter(h, tag, f, priority, acceptedArgs)
  {
    AddFilter(h, tag, f, priority, acceptedArgs)
  }

  /** `remove_action`: the same operation as `remove_filter`. */
  function RemoveAction(h: Hooks, tag: string, f: Callable, priority: int): (u: Update)
    ensures u.ok <==> Registered(h, tag, priority, f).Some?
    ensures u == RemoveFilter(h, tag, f, priority)
  {
    RemoveFilter(h, tag, f, priority)
  }

  /** `remove_all_actions`: the same operation as `remove_all_filters`. */
  function RemoveAllActions(h: Hooks, tag: string, priority: Option<int>): (u: Update)
    ensures u.ok && tag !in u.reg.merged
    ensures u == RemoveAllFilters(h, tag, priority)
  {
    RemoveAllFilters(h, tag, priority)
  }

  /** `has_action`: the same query as `has_filter`. */
  function HasAction(h: Hooks, tag: string, check: Option<Callable>): (r: Value)
    ensures check.None? ==> r == Bool(tag in h.filters)
    ensures r == HasFilter(h, tag, check)
  {
    HasFilter(h, tag, check)
  }

  /** `did_action($tag)`: how many times the action fired, 0 if never. */
  function DidAction(h: Hooks, tag: string): (n: nat)
    ensures n > 0 ==> tag in h.actions
  {
    if tag in h.actions then h.actions[tag] else 0
  }

  /** `current_filter()`: `end()` of the stack, which is `false` when empty. */
  function CurrentFilter(h: Hooks): (r: Value)
    ensures r == Bool(false) <==> h.stack == []
    ensures h.stack != [] ==> r == Str(h.stack[|h.stack| - 1])
  {
    if h.stack == [] then Bool(false) else Str(h.stack[|h.stack| - 1])
  }
}

=== FILE: table.dfy ===
/** The per-tag table `$filters[$tag]`: priority levels in PHP array order,
    each an insertion-ordered map from callable key to entry. */
module PriorityTable {
  import opened Php
  import opened Callables

  /** One registration: the callback and how many arguments it is handed. */
  datatype Entry = Entry(callback: Callable, acceptedArgs: int)

  /** A key of a priority level with the entry stored under it. */
  datatype Slot = Slot(key: string, entry: Entry)

  /** The registrations of one tag at one priority, in insertion order. */
  datatype Level = Level(priority: int, slots: seq<Slot>)

  /** An entry scheduled for dispatch, with the priority it was found at. */
  datatype Scheduled = Scheduled(priority: int, entry: Entry)

  function Keys(slots: seq<Slot>): (ks: seq<string>)
    ensures |ks| == |slots|
    ensures forall i | 0 <= i < |slots| :: ks[i] == slots[i].key
  {
    if slots == [] then [] else [slots[0].key] + Keys(slots[1..])
  }

  function Priorities(t: seq<Level>): (ps: seq<int>)
    ensures |ps| == |t|
    ensures forall i | 0 <= i < |t| :: ps[i] == t[i].priority
  {
    if t == [] then [] else [t[0].priority] + Priorities(t[1..])
  }

  /** The shape of a table: its priorities and each level's keys, in order. */
  function Layout(t: seq<Level>): seq<(int, seq<string>)> {
    if t == [] then [] else [(t[0].priority, Keys(t[0].slots))] + Layout(t[1..])
  }

  /** What PHP guarantees of `$filters[$tag]` as the registry builds it:
      priorities are unique keys, every level is non-empty and its callable
      keys are unique. */
  predicate WellFormed(t: seq<Level>) {
    && Distinct(Priorities(t))
    && forall l | l in t :: l.slots != [] && Distinct(Keys(l.slots))
  }

  /** The table is in ascending priority order, as `ksort` leaves it. */
  predicate Sorted(t: seq<Level>) {
    forall i, j | 0 <= i < j < |t| :: t[i].priority < t[j].priority
  }

  // ---------------------------------------------------------------------
  // One priority level as an insertion-ordered map.

  /** `$level[$key]`, or None when unset. */
  function Get(slots: seq<Slot>, key: string): (r: Option<Entry>)
    ensures r.None? <==> key !in Keys(slots)
    ensures r.Some? ==> Slot(key, r.value) in slots
  {
    if slots == [] then None
    else if slots[0].key == key then Some(slots[0].entry)
    else Get(slots[1..], key)
  }

  /** `$level[$key] = $entry`: a present key keeps its position and takes the
      new entry, an absent one is appended. */
  function Upsert(slots: seq<Slot>, key: string, e: Entry): (r: seq<Slot>)
    ensures forall k :: Get(r, k) == if k == key then Some(e) else Get(slots, k)
    ensures Keys(r) == if key in Keys(slots) then Keys(slots) else Keys(slots) + [key]
    ensures Distinct(Keys(slots)) ==> Distinct(Keys(r))
    ensures r != []
  {
    if slots == [] then [Slot(key, e)]
    else
      assert slots == [slots[0]] + slots[1..];
      if slots[0].key == key then
        UpsertHead(slots[0], slots[1..], key, e);
        [Slot(key, e)] + slots[1..]
      else
        var rest := Upsert(slots[1..], key, e);
        UpsertStepGet(slots[0], slots[1..], rest, key, e);
        UpsertStepKeys(slots[0], slots[1..], rest, key);
        assert Distinct(Keys(slots)) && key !in Keys(slots) ==> Distinct(Keys(slots) + [key]) by {
          if Distinct(Keys(slots)) && key !in Keys(slots) {
            DistinctAppend(Keys(slots), key);
          }
        }
        [slots[0]] + rest
  }

  /** The step of `Upsert` that finds the key in the first slot. */
  lemma UpsertHead(x: Slot, tail: seq<Slot>, key: string, e: Entry)
    requires x.key == key
    ensures forall k :: Get([Slot(key, e)] + tail, k) == if k == key then Some(e) else Get([x] + tail, k)
    ensures Keys([Slot(key, e)] + tail) == Keys([x] + tail) && key in Keys([x] + tail)
  {
    assert ([x] + tail)[1..] == tail && ([Slot(key, e)] + tail)[1..] == tail;
    assert Keys([x] + tail) == [key] + Keys(tail);
    assert Keys([Slot(key, e)] + tail) == [key] + Keys(tail);
  }

  /** The step of `Upsert` that passes over a slot with another key: reads. */
  lemma UpsertStepGet(x: Slot, tail: seq<Slot>, rest: seq<Slot>, key: string, e: Entry)
    requires x.key != key
    requires forall k :: Get(rest, k) == if k == key then Some(e) else Get(tail, k)
    ensures forall k :: Get([x] + rest, k) == if k == key then Some(e) else Get([x] + tail, k)
  {
    assert ([x] + tail)[0] == x && ([x] + tail)[1..] == tail;
    assert ([x] + rest)[0] == x && ([x] + rest)[1..] == rest;
  }

  /** The step of `Upsert` that passes over a slot with another key: keys. */
  lemma UpsertStepKeys(x: Slot, tail: seq<Slot>, rest: seq<Slot>, key: string)
    requires x.key != key
    requires Keys(rest) == if key in Keys(tail) then Keys(tail) else Keys(tail) + [key]
    ensures Keys([x] + rest) == if key in Keys([x] + tail) then Keys([x] + tail) else Keys([x] + tail) + [key]
  {
    assert ([x] + tail)[0] == x && ([x] + tail)[1..] == tail;
    assert ([x] + rest)[0] == x && ([x] + rest)[1..] == rest;
    assert Keys([x] + tail) == [x.key] + Keys(tail);
    assert Keys([x] + rest) == [x.key] + Keys(rest);
    assert key in Keys([x] + tail) <==> key in Keys(tail);
  }

  /** Storing under the same key twice leaves what one store of the second
      entry leaves: one slot, in the first store's position. */
  lemma {:induction false} UpsertTwice(slots: seq<Slot>, key: string, e1: Entry, e2: Entry)
    ensures Upsert(Upsert(slots, key, e1), key, e2) == Upsert(slots, key, e2)
  {
    if slots != [] && slots[0].key != key {
      UpsertTwice(slots[1..], key, e1, e2);
      var u := Upsert(slots, key, e1);
      assert u[1..] == Upsert(slots[1..], key, e1);
    }
  }

  /** Storing a key the level lacks appends a slot at the end: the new
      registration runs after every one already at that priority. */
  lemma {:induction false} UpsertFresh(slots: seq<Slot>, key: string, e: Entry)
    requires key !in Keys(slots)
    ensures Upsert(slots, key, e) == slots + [Slot(key, e)]
  {
    if slots != [] {
      var x, tail := slots[0], slots[1..];
      assert slots == [x] + tail;
      KeysCons(x, tail);
      UpsertFresh(tail, key, e);
      UpsertPassFresh(x, tail, key, e);
    }
  }

  lemma UpsertPassFresh(x: Slot, tail: seq<Slot>, key: string, e: Entry)
    requires x.key != key && Upsert(tail, key, e) == tail + [Slot(key, e)]
    ensures Upsert([x] + tail, key, e) == ([x] + tail) + [Slot(key, e)]
  {
    var s := [x] + tail;
    assert s[0] == x && s[1..] == tail;
    assert Upsert(s, key, e) == [x] + Upsert(tail, key, e);
    ConsSnoc(x, tail, Slot(key, e));
  }

  /** Removing the key found at position `i` of a level with unique keys
      cuts out exactly that slot; the others keep their order. */
  lemma RemoveKeyAt(slots: seq<Slot>, key: string, i: nat)
    requires Distinct(Keys(slots)) && i < |slots| && slots[i].key == key
    ensures RemoveKey(slots, key) == slots[..i] + slots[i + 1..]
  {
    var a, b := slots[..i], slots[i + 1..];
    assert slots == a + [slots[i]] + b;
    KeyNotBefore(slots, i);
    KeyNotAfter(slots, i);
    RemoveKeySplit(a, slots[i], b, key);
  }

  /** A key that occurs once, between `a` and `b`, is cut out alone. */
  lemma {:induction false} RemoveKeySplit(a: seq<Slot>, x: Slot, b: seq<Slot>, key: string)
    requires x.key == key && key !in Keys(a) && key !in Keys(b)
    ensures RemoveKey(a + [x] + b, key) == a + b
  {
    if a == [] {
      assert a + [x] + b == [x] + b && a + b == b;
      RemoveKeyCons(x, b, key);
    } else {
      KeysTail(a);
      RemoveKeySplit(a[1..], x, b, key);
      ConsSplit(a, x, b);
      RemoveKeyCons(a[0], a[1..] + [x] + b, key);
    }
  }

  lemma ConsSnoc<T>(x: T, s: seq<T>, y: T)
    ensures [x] + (s + [y]) == ([x] + s) + [y]
  {
  }

  lemma ConsSplit<T>(a: seq<T>, x: T, b: seq<T>)
    requires a != []
    ensures a + [x] + b == [a[0]] + (a[1..] + [x] + b)
    ensures a + b == [a[0]] + (a[1..] + b)
  {
    assert a == [a[0]] + a[1..];
  }

  lemma KeyNotBefore(slots: seq<Slot>, i: nat)
    requires Distinct(Keys(slots)) && i < |slots|
    ensures slots[i].key !in Keys(slots[..i])
  {
    KeysSlices(slots, i);
    DistinctOnce(Keys(slots), i);
  }

  lemma KeyNotAfter(slots: seq<Slot>, i: nat)
    requires Distinct(Keys(slots)) && i < |slots|
    ensures slots[i].key !in Keys(slots[i + 1..])
  {
    KeysSlices(slots, i);
    DistinctOnce(Keys(slots), i);
  }

  lemma KeysSlices(slots: seq<Slot>, i: nat)
    requires i < |slots|
    ensures Keys(slots)[i] == slots[i].key
    ensures Keys(slots[..i]) == Keys(slots)[..i]
    ensures Keys(slots[i + 1..]) == Keys(slots)[i + 1..]
  {
    KeysPrefix(slots, i);
    KeysSuffix(slots, i + 1);
  }

  lemma KeysPrefix(slots: seq<Slot>, i: nat)
    requires i <= |slots|
    ensures Keys(slots[..i]) == Keys(slots)[..i]
  {
    var ks, before := Keys(slots), Keys(slots[..i]);
    forall j | 0 <= j < i ensures before[j] == ks[..i][j] {
      assert before[j] == slots[..i][j].key;
    }
  }

  lemma KeysSuffix(slots: seq<Slot>, i: nat)
    requires i <= |slots|
    ensures Keys(slots[i..]) == Keys(slots)[i..]
  {
    var ks, after := Keys(slots), Keys(slots[i..]);
    forall j | 0 <= j < |after| ensures after[j] == ks[i..][j] {
      assert after[j] == slots[i..][j].key == slots[i + j].key;
    }
  }

  lemma KeysTail(slots: seq<Slot>)
    requires slots != []
    ensures Keys(slots)[0] == slots[0].key && Keys(slots[1..]) == Keys(slots)[1..]
  {
  }

  lemma RemoveKeyCons(x: Slot, tail: seq<Slot>, key: string)
    ensures RemoveKey([x] + tail, key) == if x.key == key then RemoveKey(tail, key) else [x] + RemoveKey(tail, key)
  {
    assert ([x] + tail)[0] == x && ([x] + tail)[1..] == tail;
  }

  /** `unset($level[$key])`. */
  function RemoveKey(slots: seq<Slot>, key: string): (r: seq<Slot>)
    ensures forall k :: Get(r, k) == if k == key then None else Get(slots, k)
    ensures forall k | k in Keys(r) :: k in Keys(slots) && k != key
    ensures Distinct(Keys(slots)) ==> Distinct(Keys(r))
    ensures key !in Keys(slots) ==> r == slots
    ensures Distinct(Keys(slots)) && key in Keys(slots) ==> |r| == |slots| - 1
  {
    if slots == [] then []
    else
      assert slots == [slots[0]] + slots[1..];
      var rest := RemoveKey(slots[1..], key);
      if slots[0].key == key then
        RemoveHeadGet(slots[0], slots[1..], rest, key);
        RemoveHeadKeys(slots[0], slots[1..], rest, key);
        rest
      else
        RemoveStepGet(slots[0], slots[1..], rest, key);
        RemoveStepKeys(slots[0], slots[1..], rest, key);
        [slots[0]] + rest
  }

  lemma KeysCons(x: Slot, tail: seq<Slot>)
    ensures Keys([x] + tail) == [x.key] + Keys(tail)
  {
    assert ([x] + tail)[1..] == tail;
  }

  /** The step of `RemoveKey` that drops the first slot: reads. */
  lemma RemoveHeadGet(x: Slot, tail: seq<Slot>, rest: seq<Slot>, key: string)
    requires x.key == key
    requires forall k :: Get(rest, k) == if k == key then None else Get(tail, k)
    ensures forall k :: Get(rest, k) == if k == key then None else Get([x] + tail, k)
  {
    assert ([x] + tail)[0] == x && ([x] + tail)[1..] == tail;
  }

  /** The step of `RemoveKey` that drops the first slot: keys. */
  lemma RemoveHeadKeys(x: Slot, tail: seq<Slot>, rest: seq<Slot>, key: string)
    requires x.key == key
    requires forall k | k in Keys(rest) :: k in Keys(tail) && k != key
    requires Distinct(Keys(tail)) ==> Distinct(Keys(rest))
    requires key !in Keys(tail) ==> rest == tail
    ensures forall k | k in Keys(rest) :: k in Keys([x] + tail) && k != key
    ensures Distinct(Keys([x] + tail)) ==> Distinct(Keys(rest))
    ensures Distinct(Keys([x] + tail)) ==> |rest| == |[x] + tail| - 1
  {
    KeysCons(x, tail);
    DistinctCons(x.key, Keys(tail));
  }

  /** The step of `RemoveKey` that keeps a slot with another key: reads. */
  lemma RemoveStepGet(x: Slot, tail: seq<Slot>, rest: seq<Slot>, key: string)
    requires x.key != key
    requires forall k :: Get(rest, k) == if k == key then None else Get(tail, k)
    ensures forall k :: Get([x] + rest, k) == if k == key then None else Get([x] + tail, k)
  {
    assert ([x] + tail)[0] == x && ([x] + tail)[1..] == tail;
    assert ([x] + rest)[0] == x && ([x] + rest)[1..] == rest;
  }

  /** The step of `RemoveKey` that keeps a slot with another key: keys. */
  lemma RemoveStepKeys(x: Slot, tail: seq<Slot>, rest: seq<Slot>, key: string)
    requires x.key != key
    requires forall k | k in Keys(rest) :: k in Keys(tail) && k != key
    requires Distinct(Keys(tail)) ==> Distinct(Keys(rest))
    requires key !in Keys(tail) ==> rest == tail
    requires Distinct(Keys(tail)) && key in Keys(tail) ==> |rest| == |tail| - 1
    ensures forall k | k in Keys([x] + rest) :: k in Keys([x] + tail) && k != key
    ensures Distinct(Keys([x] + tail)) ==> Distinct(Keys([x] + rest))
    ensures key !in Keys([x] + tail) ==> [x] + rest == [x] + tail
    ensures Distinct(Keys([x] + tail)) && key in Keys([x] + tail) ==> |[x] + rest| == |[x] + tail| - 1
  {
    KeysCons(x, tail);
    KeysCons(x, rest);
    RemoveStepMembers(x, tail, rest, key);
    RemoveStepDistinct(x, tail, rest);
    RemoveStepCount(x, tail, rest, key);
  }

  lemma RemoveStepCount(x: Slot, tail: seq<Slot>, rest: seq<Slot>, key: string)
    requires x.key != key
    requires key !in Keys(tail) ==> rest == tail
    requires Distinct(Keys(tail)) && key in Keys(tail) ==> |rest| == |tail| - 1
    requires Keys([x] + tail) == [x.key] + Keys(tail)
    ensures key !in Keys([x] + tail) ==> [x] + rest == [x] + tail
    ensures Distinct(Keys([x] + tail)) && key in Keys([x] + tail) ==> |[x] + rest| == |[x] + tail| - 1
  {
    DistinctCons(x.key, Keys(tail));
    assert key in Keys([x] + tail) ==> key in Keys(tail);
  }

  lemma RemoveStepMembers(x: Slot, tail: seq<Slot>, rest: seq<Slot>, key: string)
    requires x.key != key
    requires forall k | k in Keys(rest) :: k in Keys(tail) && k != key
    requires Keys([x] + tail) == [x.key] + Keys(tail) && Keys([x] + rest) == [x.key] + Keys(rest)
    ensures forall k | k in Keys([x] + rest) :: k in Keys([x] + tail) && k != key
  {
  }

  lemma RemoveStepDistinct(x: Slot, tail: seq<Slot>, rest: seq<Slot>)
    requires forall k | k in Keys(rest) :: k in Keys(tail)
    requires Distinct(Keys(tail)) ==> Distinct(Keys(rest))
    requires Keys([x] + tail) == [x.key] + Keys(tail) && Keys([x] + rest) == [x.key] + Keys(rest)
    ensures Distinct(Keys([x] + tail)) ==> Distinct(Keys([x] + rest))
  {
    DistinctCons(x.key, Keys(tail));
    DistinctCons(x.key, Keys(rest));
  }

  // ---------------------------------------------------------------------
  // A tag's table as a map from priority to level.

  /** `$table[$priority]`, or None when unset. */
  function FindLevel(t: seq<Level>, p: int): (r: Option<seq<Slot>>)
    ensures r.None? <==> p !in Priorities(t)
    ensures r.Some? ==> Level(p, r.value) in t
  {
    if t == [] then None
    else if t[0].priority == p then Some(t[0].slots)
    else FindLevel(t[1..], p)
  }

  /** Under unique priorities a level of the table is what `$table[$p]`
      reads for its priority. */
  lemma {:induction false} FindLevelIn(t: seq<Level>, l: Level)
    requires Distinct(Priorities(t)) && l in t
    ensures FindLevel(t, l.priority) == Some(l.slots)
  {
    assert Priorities(t) == [t[0].priority] + Priorities(t[1..]);
    DistinctCons(t[0].priority, Priorities(t[1..]));
    if t[0] != l {
      FindLevelIn(t[1..], l);
    }
  }

  /** `$table[$priority][$key]`, or None when either is unset. */
  function Lookup(t: seq<Level>, p: int, key: string): Option<Entry> {
    match FindLevel(t, p)
    case None => None
    case Some(slots) => Get(slots, key)
  }

  /** `$table[$priority] = $slots`: a present priority keeps its position,
      an absent one is appended. */
  function PutLevel(t: seq<Level>, p: int, s: seq<Slot>): (r: seq<Level>)
    ensures forall q :: FindLevel(r, q) == if q == p then Some(s) else FindLevel(t, q)
    ensures Priorities(r) == if p in Priorities(t) then Priorities(t) else Priorities(t) + [p]
    ensures forall l | l in r :: l in t || l == Level(p, s)
    ensures FindLevel(t, p).Some? && Keys(FindLevel(t, p).value) == Keys(s) ==> Layout(r) == Layout(t)
  {
    if t == [] then [Level(p, s)]
    else
      assert t == [t[0]] + t[1..];
      if t[0].priority == p then
        PutHeadFind(t[0], t[1..], p, s);
        PutHeadShape(t[0], t[1..], p, s);
        [Level(p, s)] + t[1..]
      else
        var rest := PutLevel(t[1..], p, s);
        PutStepFind(t[0], t[1..], rest, p, s);
        PutStepShape(t[0], t[1..], rest, p, s);
        [t[0]] + rest
  }

  /** A priority the table lacks is appended after every existing level. */
  lemma {:induction false} PutLevelFresh(t: seq<Level>, p: int, s: seq<Slot>)
    requires p !in Priorities(t)
    ensures PutLevel(t, p, s) == t + [Level(p, s)]
  {
    if t != [] {
      PrioritiesTail(t);
      PutLevelFresh(t[1..], p, s);
      PutLevelPass(t, p, s);
    }
  }

  lemma PrioritiesTail(t: seq<Level>)
    requires t != []
    ensures Priorities(t)[0] == t[0].priority && Priorities(t[1..]) == Priorities(t)[1..]
  {
  }

  lemma PutLevelPass(t: seq<Level>, p: int, s: seq<Slot>)
    requires t != [] && t[0].priority != p && PutLevel(t[1..], p, s) == t[1..] + [Level(p, s)]
    ensures PutLevel(t, p, s) == t + [Level(p, s)]
  {
    assert PutLevel(t, p, s) == [t[0]] + PutLevel(t[1..], p, s);
    ConsSnoc(t[0], t[1..], Level(p, s));
    assert t == [t[0]] + t[1..];
  }

  lemma PrioritiesCons(x: Level, tail: seq<Level>)
    ensures Priorities([x] + tail) == [x.priority] + Priorities(tail)
  {
    assert ([x] + tail)[1..] == tail;
  }

  lemma LayoutCons(x: Level, tail: seq<Level>)
    ensures Layout([x] + tail) == [(x.priority, Keys(x.slots))] + Layout(tail)
  {
    assert ([x] + tail)[0] == x && ([x] + tail)[1..] == tail;
  }

  /** The step of `PutLevel` that replaces the first level: reads. */
  lemma PutHeadFind(x: Level, tail: seq<Level>, p: int, s: seq<Slot>)
    requires x.priority == p
    ensures forall q :: FindLevel([Level(p, s)] + tail, q) == if q == p then Some(s) else FindLevel([x] + tail, q)
  {
    assert ([x] + tail)[0] == x && ([x] + tail)[1..] == tail;
    assert ([Level(p, s)] + tail)[1..] == tail;
  }

  /** The step of `PutLevel` that replaces the first level: shape. */
  lemma PutHeadShape(x: Level, tail: seq<Level>, p: int, s: seq<Slot>)
    requires x.priority == p
    ensures Priorities([Level(p, s)] + tail) == Priorities([x] + tail) && p in Priorities([x] + tail)
    ensures forall l | l in [Level(p, s)] + tail :: l in [x] + tail || l == Level(p, s)
    ensures Keys(x.slots) == Keys(s) ==> Layout([Level(p, s)] + tail) == Layout([x] + tail)
    ensures FindLevel([x] + tail, p) == Some(x.slots)
  {
    PrioritiesCons(x, tail);
    PrioritiesCons(Level(p, s), tail);
    LayoutCons(x, tail);
    LayoutCons(Level(p, s), tail);
    assert ([x] + tail)[0] == x;
  }

  /** The step of `PutLevel` that passes over a level of another priority: reads. */
  lemma PutStepFind(x: Level, tail: seq<Level>, rest: seq<Level>, p: int, s: seq<Slot>)
    requires x.priority != p
    requires forall q :: FindLevel(rest, q) == if q == p then Some(s) else FindLevel(tail, q)
    ensures forall q :: FindLevel([x] + rest, q) == if q == p then Some(s) else FindLevel([x] + tail, q)
  {
    assert ([x] + tail)[0] == x && ([x] + tail)[1..] == tail;
    assert ([x] + rest)[0] == x && ([x] + rest)[1..] == rest;
  }

  /** The step of `PutLevel` that passes over a level of another priority: shape. */
  lemma PutStepShape(x: Level, tail: seq<Level>, rest: seq<Level>, p: int, s: seq<Slot>)
    requires x.priority != p
    requires Priorities(rest) == if p in Priorities(tail) then Priorities(tail) else Priorities(tail) + [p]
    requires forall l | l in rest :: l in tail || l == Level(p, s)
    requires FindLevel(tail, p).Some? && Keys(FindLevel(tail, p).value) == Keys(s) ==> Layout(rest) == Layout(tail)
    ensures Priorities([x] + rest) == if p in Priorities([x] + tail) then Priorities([x] + tail) else Priorities([x] + tail) + [p]
    ensures forall l | l in [x] + rest :: l in [x] + tail || l == Level(p, s)
    ensures FindLevel([x] + tail, p).Some? && Keys(FindLevel([x] + tail, p).value) == Keys(s) ==> Layout([x] + rest) == Layout([x] + tail)
  {
    PutStepPriorities(x, tail, rest, p);
    PutStepLayout(x, tail, rest, p, s);
  }

  lemma PutStepPriorities(x: Level, tail: seq<Level>, rest: seq<Level>, p: int)
    requires x.priority != p
    requires Priorities(rest) == if p in Priorities(tail) then Priorities(tail) else Priorities(tail) + [p]
    ensures Priorities([x] + rest) == if p in Priorities([x] + tail) then Priorities([x] + tail) else Priorities([x] + tail) + [p]
  {
    PrioritiesCons(x, tail);
    PrioritiesCons(x, rest);
    assert p in Priorities([x] + tail) <==> p in Priorities(tail);
    if p !in Priorities(tail) {
      assert [x.priority] + (Priorities(tail) + [p]) == ([x.priority] + Priorities(tail)) + [p];
    }
  }

  lemma PutStepLayout(x: Level, tail: seq<Level>, rest: seq<Level>, p: int, s: seq<Slot>)
    requires x.priority != p
    requires FindLevel(tail, p).Some? && Keys(FindLevel(tail, p).value) == Keys(s) ==> Layout(rest) == Layout(tail)
    ensures FindLevel([x] + tail, p).Some? && Keys(FindLevel([x] + tail, p).value) == Keys(s) ==> Layout([x] + rest) == Layout([x] + tail)
  {
    LayoutCons(x, tail);
    LayoutCons(x, rest);
    assert ([x] + tail)[0] == x && ([x] + tail)[1..] == tail;
  }

  lemma {:induction false} PutLevelTwice(t: seq<Level>, p: int, s1: seq<Slot>, s2: seq<Slot>)
    ensures PutLevel(PutLevel(t, p, s1), p, s2) == PutLevel(t, p, s2)
  {
    if t != [] && t[0].priority != p {
      PutLevelTwice(t[1..], p, s1, s2);
      var u := PutLevel(t, p, s1);
      assert u[1..] == PutLevel(t[1..], p, s1);
    }
  }

  /** `$table[$priority][$key] = $e`: the add of `add_filter` on one table. */
  function Store(t: seq<Level>, p: int, key: string, e: Entry): (r: seq<Level>)
    ensures Lookup(r, p, key) == Some(e)
    ensures forall q, k | q != p || k != key :: Lookup(r, q, k) == Lookup(t, q, k)
    ensures WellFormed(t) ==> WellFormed(r)
    ensures Lookup(t, p, key).Some? ==> Layout(r) == Layout(t)
    ensures Lookup(t, p, key).None? ==> LevelOf(r, p) == LevelOf(t, p) + [Slot(key, e)]
    ensures forall q | q != p :: FindLevel(r, q) == FindLevel(t, q)
    ensures Priorities(r) == if p in Priorities(t) then Priorities(t) else Priorities(t) + [p]
  {
    var r := PutLevel(t, p, Upsert(LevelOf(t, p), key, e));
    StoreReads(t, p, key, e, r);
    StoreShape(t, p, key, e, r);
    r
  }

  lemma StoreReads(t: seq<Level>, p: int, key: string, e: Entry, r: seq<Level>)
    requires r == PutLevel(t, p, Upsert(LevelOf(t, p), key, e))
    ensures Lookup(r, p, key) == Some(e)
    ensures forall q, k | q != p || k != key :: Lookup(r, q, k) == Lookup(t, q, k)
  {
    StoreReadAt(t, p, key, e, r, p, key);
    forall q, k | q != p || k != key ensures Lookup(r, q, k) == Lookup(t, q, k) {
      StoreReadAt(t, p, key, e, r, q, k);
    }
  }

  lemma StoreReadAt(t: seq<Level>, p: int, key: string, e: Entry, r: seq<Level>, q: int, k: string)
    requires r == PutLevel(t, p, Upsert(LevelOf(t, p), key, e))
    ensures Lookup(r, q, k) == if q == p && k == key then Some(e) else Lookup(t, q, k)
  {
    var level := LevelOf(t, p);
    if q == p {
      assert FindLevel(r, p) == Some(Upsert(level, key, e));
      assert Lookup(t, p, k) == Get(level, k);
    } else {
      assert FindLevel(r, q) == FindLevel(t, q);
    }
  }

  lemma StoreShape(t: seq<Level>, p: int, key: string, e: Entry, r: seq<Level>)
    requires r == PutLevel(t, p, Upsert(LevelOf(t, p), key, e))
    ensures WellFormed(t) ==> WellFormed(r)
    ensures Lookup(t, p, key).Some? ==> Layout(r) == Layout(t)
    ensures Lookup(t, p, key).None? ==> LevelOf(r, p) == LevelOf(t, p) + [Slot(key, e)]
    ensures forall q | q != p :: FindLevel(r, q) == FindLevel(t, q)
    ensures Priorities(r) == if p in Priorities(t) then Priorities(t) else Priorities(t) + [p]
  {
    var level := LevelOf(t, p);
    assert LevelOf(r, p) == Upsert(level, key, e);
    if Lookup(t, p, key).None? {
      assert key !in Keys(level);
      UpsertFresh(level, key, e);
    }
    if WellFormed(t) {
      LevelOfDistinct(t, p);
      PutLevelWellFormed(t, p, Upsert(level, key, e));
    }
  }

  /** Storing at a priority the table lacks adds a one-entry level at the
      end of the table's array order. */
  lemma StoreNewLevel(t: seq<Level>, p: int, key: string, e: Entry)
    requires p !in Priorities(t)
    ensures Store(t, p, key, e) == t + [Level(p, [Slot(key, e)])]
  {
    assert LevelOf(t, p) == [];
    assert Upsert([], key, e) == [Slot(key, e)];
    PutLevelFresh(t, p, [Slot(key, e)]);
  }

  /** `$table[$p]`, with an unset priority read as an empty level. */
  function LevelOf(t: seq<Level>, p: int): seq<Slot> {
    match FindLevel(t, p) case Some(s) => s case None => []
  }

  lemma LevelOfDistinct(t: seq<Level>, p: int)
    requires WellFormed(t)
    ensures Distinct(Keys(LevelOf(t, p)))
  {
    if FindLevel(t, p).Some? {
      assert Level(p, LevelOf(t, p)) in t;
    }
  }

  /** Putting a non-empty level with unique keys keeps the table well formed. */
  lemma PutLevelWellFormed(t: seq<Level>, p: int, s: seq<Slot>)
    requires WellFormed(t) && s != [] && Distinct(Keys(s))
    ensures WellFormed(PutLevel(t, p, s))
  {
    if p !in Priorities(t) {
      DistinctAppend(Priorities(t), p);
    }
  }

  lemma {:induction false} StoreTwice(t: seq<Level>, p: int, key: string, e1: Entry, e2: Entry)
    ensures Store(Store(t, p, key, e1), p, key, e2) == Store(t, p, key, e2)
  {
    var level := LevelOf(t, p);
    var t1 := Store(t, p, key, e1);
    assert FindLevel(t1, p) == Some(Upsert(level, key, e1));
    UpsertTwice(level, key, e1, e2);
    PutLevelTwice(t, p, Upsert(level, key, e1), Upsert(level, key, e2));
  }

  /** `unset($table[$p][$key])`, then `unset($table[$p])` if the level is
      left empty: the removal of `remove_filter` on one table. */
  function Unstore(t: seq<Level>, p: int, key: string): (r: seq<Level>)
    requires WellFormed(t) && Lookup(t, p, key).Some?
    ensures WellFormed(r)
    ensures Lookup(r, p, key).None?
    ensures forall q, k | q != p || k != key :: Lookup(r, q, k) == Lookup(t, q, k)
    ensures FindLevel(r, p).None? <==> Keys(FindLevel(t, p).value) == [key]
    ensures FindLevel(r, p).Some? ==> FindLevel(r, p) == Some(RemoveKey(FindLevel(t, p).value, key))
    ensures forall q | q != p :: FindLevel(r, q) == FindLevel(t, q)
    ensures Priorities(r) == if FindLevel(r, p).None? then Without(Priorities(t), p) else Priorities(t)
  {
    var level := FindLevel(t, p).value;
    var rest := RemoveKey(level, key);
    var r := if rest == [] then DropLevel(t, p) else PutLevel(t, p, rest);
    UnstoreShape(t, p, key, level, rest, r);
    UnstoreReads(t, p, key, level, rest, r);
    r
  }

  lemma UnstoreShape(t: seq<Level>, p: int, key: string, level: seq<Slot>, rest: seq<Slot>, r: seq<Level>)
    requires WellFormed(t) && FindLevel(t, p) == Some(level) && key in Keys(level)
    requires rest == RemoveKey(level, key)
    requires r == if rest == [] then DropLevel(t, p) else PutLevel(t, p, rest)
    ensures WellFormed(r)
    ensures forall q :: FindLevel(r, q) == if q != p then FindLevel(t, q) else if rest == [] then None else Some(rest)
    ensures rest == [] <==> Keys(level) == [key]
    ensures Priorities(r) == if rest == [] then Without(Priorities(t), p) else Priorities(t)
  {
    assert Level(p, level) in t;
    if rest != [] {
      PutLevelWellFormed(t, p, rest);
    } else {
      assert forall l | l in r :: l in t;
    }
    assert |Keys(level)| == 1 ==> Keys(level) == [Keys(level)[0]];
  }

  lemma UnstoreReads(t: seq<Level>, p: int, key: string, level: seq<Slot>, rest: seq<Slot>, r: seq<Level>)
    requires FindLevel(t, p) == Some(level)
    requires rest == RemoveKey(level, key)
    requires forall q :: FindLevel(r, q) == if q != p then FindLevel(t, q) else if rest == [] then None else Some(rest)
    ensures Lookup(r, p, key).None?
    ensures forall q, k | q != p || k != key :: Lookup(r, q, k) == Lookup(t, q, k)
  {
    forall q, k | q != p || k != key ensures Lookup(r, q, k) == Lookup(t, q, k) {
      if q == p {
        assert Get(rest, k) == Get(level, k);
      }
    }
  }

  /** Storing a key that was absent and removing it again gives back the
      table exactly, positions included. */
  lemma StoreThenUnstore(t: seq<Level>, p: int, key: string, e: Entry)
    requires WellFormed(t) && Lookup(t, p, key).None?
    ensures Unstore(Store(t, p, key, e), p, key) == t
  {
    var level := LevelOf(t, p);
    assert key !in Keys(level);
    var t1 := Store(t, p, key, e);
    assert FindLevel(t1, p) == Some(Upsert(level, key, e));
    RemoveKeyUpsert(level, key, e);
    assert Unstore(t1, p, key) == if level == [] then DropLevel(t1, p) else PutLevel(t1, p, level);
    if FindLevel(t, p).Some? {
      assert Level(p, level) in t;
      PutLevelTwice(t, p, Upsert(level, key, e), level);
      PutLevelUnchanged(t, p);
    } else {
      DropLevelPutLevel(t, p, Upsert(level, key, e));
    }
  }

  lemma RemoveKeyUpsert(slots: seq<Slot>, key: string, e: Entry)
    requires key !in Keys(slots)
    ensures RemoveKey(Upsert(slots, key, e), key) == slots
  {
    UpsertFresh(slots, key, e);
    RemoveKeySplit(slots, Slot(key, e), [], key);
    assert slots + [Slot(key, e)] + [] == slots + [Slot(key, e)];
    assert slots + [] == slots;
  }

  lemma {:induction false} PutLevelUnchanged(t: seq<Level>, p: int)
    requires FindLevel(t, p).Some?
    ensures PutLevel(t, p, FindLevel(t, p).value) == t
  {
    if t[0].priority != p {
      PutLevelUnchanged(t[1..], p);
      assert t == [t[0]] + t[1..];
    } else {
      assert t == [t[0]] + t[1..];
    }
  }

  lemma {:induction false} DropLevelAbsent(t: seq<Level>, p: int)
    requires p !in Priorities(t)
    ensures DropLevel(t, p) == t
  {
    if t != [] {
      PrioritiesTail(t);
      DropLevelAbsent(t[1..], p);
      assert DropLevel(t, p) == [t[0]] + DropLevel(t[1..], p);
      assert t == [t[0]] + t[1..];
    }
  }

  lemma DropLevelPutLevel(t: seq<Level>, p: int, s: seq<Slot>)
    requires p !in Priorities(t)
    ensures DropLevel(PutLevel(t, p, s), p) == t
  {
    PutLevelFresh(t, p, s);
    DropLevelLast(t, Level(p, s), p);
  }

  lemma {:induction false} DropLevelLast(t: seq<Level>, x: Level, p: int)
    requires p !in Priorities(t) && x.priority == p
    ensures DropLevel(t + [x], p) == t
  {
    if t == [] {
      assert DropLevel([x], p) == DropLevel([x][1..], p);
      assert [x][1..] == [];
    } else {
      var tail := t[1..];
      PrioritiesTail(t);
      DropLevelLast(tail, x, p);
      assert t == [t[0]] + tail;
      ConsSnoc(t[0], tail, x);
      DropLevelKeep(t[0], tail + [x], p);
    }
  }

  lemma DropLevelKeep(x: Level, v: seq<Level>, p: int)
    requires x.priority != p
    ensures DropLevel([x] + v, p) == [x] + DropLevel(v, p)
  {
    assert ([x] + v)[0] == x && ([x] + v)[1..] == v;
  }

  /** `unset($table[$priority])`. */
  function DropLevel(t: seq<Level>, p: int): (r: seq<Level>)
    ensures forall q :: FindLevel(r, q) == if q == p then None else FindLevel(t, q)
    ensures forall l | l in r :: l in t && l.priority != p
    ensures Distinct(Priorities(t)) ==> Distinct(Priorities(r))
    ensures Priorities(r) == Without(Priorities(t), p)
  {
    if t == [] then []
    else
      var rest := DropLevel(t[1..], p);
      assert t == [t[0]] + t[1..];
      DropOrder(t[0], t[1..], rest, p);
      if t[0].priority == p then
        DropHead(t[0], t[1..], rest, p);
        rest
      else
        KeepHead(t[0], t[1..], rest, p);
        [t[0]] + rest
  }

  /** What `DropLevel` leaves is read the same at every other priority and
      holds nothing at the dropped one. */
  lemma DropLevelReads(t: seq<Level>, p: int)
    ensures forall q, k | q != p :: Lookup(DropLevel(t, p), q, k) == Lookup(t, q, k)
    ensures forall k :: Lookup(DropLevel(t, p), p, k).None?
  {
  }

  /** The step of `DropLevel` that keeps the other levels in their order. */
  lemma DropOrder(x: Level, tail: seq<Level>, rest: seq<Level>, p: int)
    requires Priorities(rest) == Without(Priorities(tail), p)
    ensures Priorities(if x.priority == p then rest else [x] + rest) == Without(Priorities([x] + tail), p)
  {
    var ps := Priorities([x] + tail);
    assert ([x] + tail)[0] == x && ([x] + tail)[1..] == tail;
    assert ps[0] == x.priority && ps[1..] == Priorities(tail);
    if x.priority != p {
      assert ([x] + rest)[0] == x && ([x] + rest)[1..] == rest;
    }
  }

  /** The step of `DropLevel` that skips a level at the dropped priority. */
  lemma DropHead(x: Level, tail: seq<Level>, rest: seq<Level>, p: int)
    requires x.priority == p
    requires forall q :: FindLevel(rest, q) == if q == p then None else FindLevel(tail, q)
    requires forall l | l in rest :: l in tail && l.priority != p
    requires Distinct(Priorities(tail)) ==> Distinct(Priorities(rest))
    ensures forall q :: FindLevel(rest, q) == if q == p then None else FindLevel([x] + tail, q)
    ensures forall l | l in rest :: l in [x] + tail
    ensures Distinct(Priorities([x] + tail)) ==> Distinct(Priorities(rest))
  {
    assert ([x] + tail)[0] == x && ([x] + tail)[1..] == tail;
    assert Priorities([x] + tail) == [x.priority] + Priorities(tail);
    DistinctCons(x.priority, Priorities(tail));
  }

  /** The step of `DropLevel` that keeps a level at another priority. */
  lemma KeepHead(x: Level, tail: seq<Level>, rest: seq<Level>, p: int)
    requires x.priority != p
    requires forall q :: FindLevel(rest, q) == if q == p then None else FindLevel(tail, q)
    requires forall l | l in rest :: l in tail && l.priority != p
    requires Distinct(Priorities(tail)) ==> Distinct(Priorities(rest))
    ensures forall q :: FindLevel([x] + rest, q) == if q == p then None else FindLevel([x] + tail, q)
    ensures forall l | l in [x] + rest :: l in [x] + tail && l.priority != p
    ensures Distinct(Priorities([x] + tail)) ==> Distinct(Priorities([x] + rest))
  {
    KeepHeadFind(x, tail, rest, p);
    KeepHeadDistinct(x, tail, rest);
  }

  lemma KeepHeadFind(x: Level, tail: seq<Level>, rest: seq<Level>, p: int)
    requires x.priority != p
    requires forall q :: FindLevel(rest, q) == if q == p then None else FindLevel(tail, q)
    ensures forall q :: FindLevel([x] + rest, q) == if q == p then None else FindLevel([x] + tail, q)
  {
    assert ([x] + tail)[0] == x && ([x] + tail)[1..] == tail;
    assert ([x] + rest)[0] == x && ([x] + rest)[1..] == rest;
  }

  lemma KeepHeadDistinct(x: Level, tail: seq<Level>, rest: seq<Level>)
    requires forall l | l in rest :: l in tail
    requires Distinct(Priorities(tail)) ==> Distinct(Priorities(rest))
    ensures Distinct(Priorities([x] + tail)) ==> Distinct(Priorities([x] + rest))
  {
    assert ([x] + tail)[0] == x && ([x] + tail)[1..] == tail;
    assert ([x] + rest)[0] == x && ([x] + rest)[1..] == rest;
    assert Priorities([x] + tail) == [x.priority] + Priorities(tail);
    assert Priorities([x] + rest) == [x.priority] + Priorities(rest);
    DistinctCons(x.priority, Priorities(tail));
    DistinctCons(x.priority, Priorities(rest));
    if x.priority in Priorities(rest) {
      var l := LevelAt(rest, x.priority);
      PriorityOf(tail, l);
    }
  }

  /** A priority of the table belongs to one of its levels. */
  lemma LevelAt(t: seq<Level>, q: int) returns (l: Level)
    requires q in Priorities(t)
    ensures l in t && l.priority == q
  {
    var i :| 0 <= i < |t| && Priorities(t)[i] == q;
    l := t[i];
  }

  /** The priority of a level belongs to the table. */
  lemma PriorityOf(t: seq<Level>, l: Level)
    requires l in t
    ensures l.priority in Priorities(t)
  {
    var i :| 0 <= i < |t| && t[i] == l;
    assert Priorities(t)[i] == l.priority;
  }

  /** The position of the first level, in array order, holding `key`: the
      `foreach (array_keys(...))` search of `has_filter`. */
  function FirstLevelWith(t: seq<Level>, key: string): (r: Option<nat>)
    ensures r.Some? ==> r.value < |t| && key in Keys(t[r.value].slots)
    ensures r.Some? ==> forall j | 0 <= j < r.value :: key !in Keys(t[j].slots)
    ensures r.None? ==> forall j | 0 <= j < |t| :: key !in Keys(t[j].slots)
  {
    if t == [] then None
    else if key in Keys(t[0].slots) then Some(0)
    else match FirstLevelWith(t[1..], key)
      case None => None
      case Some(i) => Some(i + 1)
  }

  /** Under unique priorities, `$table[$p][$key]` is set exactly when some
      level at priority `p` holds the key. */
  lemma LookupAt(t: seq<Level>, i: nat, key: string)
    requires Distinct(Priorities(t)) && i < |t|
    ensures Lookup(t, t[i].priority, key).Some? <==> key in Keys(t[i].slots)
  {
    var l := t[i];
    assert l in t;
    FindLevelIn(t, l);
    assert Lookup(t, l.priority, key) == Get(l.slots, key);
  }

  lemma LookupSomewhere(t: seq<Level>, p: int, key: string) returns (i: nat)
    requires Distinct(Priorities(t)) && Lookup(t, p, key).Some?
    ensures i < |t| && t[i].priority == p && key in Keys(t[i].slots)
  {
    var s := FindLevel(t, p).value;
    assert Level(p, s) in t;
    i :| 0 <= i < |t| && t[i] == Level(p, s);
  }

  /** `p` is the priority of the first level, in array order, that holds
      `key`. */
  predicate FirstHolder(t: seq<Level>, key: string, p: int) {
    exists i | 0 <= i < |t| ::
      && t[i].priority == p
      && key in Keys(t[i].slots)
      && forall j | 0 <= j < i :: key !in Keys(t[j].slots)
  }

  /** The priority of the first level, in array order, that holds `key`:
      it is a priority the key is really stored at, there is one exactly when
      the key is stored somewhere, and on a sorted table it is the lowest. */
  function FirstPriorityWith(t: seq<Level>, key: string): (r: Option<int>)
    requires WellFormed(t)
    ensures r.Some? ==> Lookup(t, r.value, key).Some?
    ensures r.Some? ==> FirstHolder(t, key, r.value)
    ensures r.None? <==> forall q :: Lookup(t, q, key).None?
    ensures r.Some? && Sorted(t) ==> forall q | Lookup(t, q, key).Some? :: r.value <= q
  {
    match FirstLevelWith(t, key)
    case None =>
      NowhereStored(t, key);
      None
    case Some(i) =>
      LookupAt(t, i, key);
      LowestStored(t, key, i);
      Some(t[i].priority)
  }

  lemma NowhereStored(t: seq<Level>, key: string)
    requires Distinct(Priorities(t)) && FirstLevelWith(t, key).None?
    ensures forall q :: Lookup(t, q, key).None?
  {
    forall q | Lookup(t, q, key).Some? ensures false {
      var i := LookupSomewhere(t, q, key);
    }
  }

  lemma LowestStored(t: seq<Level>, key: string, i: nat)
    requires Distinct(Priorities(t)) && FirstLevelWith(t, key) == Some(i)
    ensures Sorted(t) ==> forall q | Lookup(t, q, key).Some? :: t[i].priority <= q
  {
    forall q | Lookup(t, q, key).Some? && Sorted(t) ensures t[i].priority <= q {
      var j := LookupSomewhere(t, q, key);
    }
  }

  // ---------------------------------------------------------------------
  // `ksort`: ascending priority order.

  /** Places a level before the first level of higher priority. */
  function Insert(l: Level, t: seq<Level>): (r: seq<Level>)
    ensures multiset(r) == multiset(t) + multiset{l}
  {
    if t == [] then [l]
    else if l.priority < t[0].priority then [l] + t
    else
      assert t == [t[0]] + t[1..];
      [t[0]] + Insert(l, t[1..])
  }

  lemma SortedCons(x: Level, t: seq<Level>)
    requires Sorted(t)
    requires forall m | m in t :: x.priority < m.priority
    ensures Sorted([x] + t)
  {
    var r := [x] + t;
    forall i, j | 0 <= i < j < |r| ensures r[i].priority < r[j].priority {
      assert r[j] == t[j - 1] && r[j] in t;
      if i > 0 {
        assert r[i] == t[i - 1];
      }
    }
  }

  /** Inserting a level of a new priority into a sorted table keeps it sorted. */
  lemma {:induction false} InsertSorted(l: Level, t: seq<Level>)
    requires Sorted(t)
    requires forall m | m in t :: m.priority != l.priority
    ensures Sorted(Insert(l, t))
  {
    if t == [] {
    } else if l.priority < t[0].priority {
      forall m | m in t ensures l.priority < m.priority {
        var k :| 0 <= k < |t| && t[k] == m;
      }
      SortedCons(l, t);
    } else {
      assert t[0] in t;
      var rest := Insert(l, t[1..]);
      InsertSorted(l, t[1..]);
      assert t == [t[0]] + t[1..];
      forall m | m in rest ensures t[0].priority < m.priority {
        assert m in multiset(rest);
        if m != l {
          var k :| 0 <= k < |t[1..]| && t[1..][k] == m;
          assert t[k + 1] == m;
        }
      }
      SortedCons(t[0], rest);
    }
  }

  /** PHP's `ksort` on a table with unique priorities: the same levels in
      ascending priority order. */
  function Ksort(t: seq<Level>): (r: seq<Level>)
    requires Distinct(Priorities(t))
    ensures Sorted(r)
    ensures multiset(r) == multiset(t)
  {
    if t == [] then []
    else
      DistinctCons(t[0].priority, Priorities(t[1..]));
      var rest := Ksort(t[1..]);
      NewPriority(t[0], t[1..], rest);
      assert t == [t[0]] + t[1..];
      InsertSorted(t[0], rest);
      Insert(t[0], rest)
  }

  /** A level whose priority the table lacks has a priority apart from
      every level of any rearrangement of the table. */
  lemma NewPriority(x: Level, t: seq<Level>, r: seq<Level>)
    requires x.priority !in Priorities(t) && multiset(r) == multiset(t)
    ensures forall m | m in r :: m.priority != x.priority
  {
    forall m | m in r ensures m.priority != x.priority {
      assert m in multiset(t);
      PriorityOf(t, m);
    }
  }

  lemma SortedIsDistinct(t: seq<Level>)
    requires Sorted(t)
    ensures Distinct(Priorities(t))
  {
  }

  /** Sorting an already sorted table changes nothing. */
  lemma {:induction false} KsortSorted(t: seq<Level>)
    requires Sorted(t)
    ensures Distinct(Priorities(t)) && Ksort(t) == t
  {
    SortedIsDistinct(t);
    if t != [] {
      SortedIsDistinct(t[1..]);
      KsortSorted(t[1..]);
      InsertFront(t[0], t[1..]);
      assert t == [t[0]] + t[1..];
    }
  }

  lemma InsertFront(l: Level, t: seq<Level>)
    requires t == [] || l.priority < t[0].priority
    ensures Insert(l, t) == [l] + t
  {
  }

  /** `ksort` keeps every level and its contents: only the order changes. */
  lemma KsortKeepsLevels(t: seq<Level>)
    requires WellFormed(t)
    ensures WellFormed(Ksort(t))
    ensures forall p :: FindLevel(Ksort(t), p) == FindLevel(t, p)
  {
    var r := Ksort(t);
    SortedIsDistinct(r);
    forall l | l in r ensures l in t {
      assert l in multiset(r);
    }
    forall p ensures FindLevel(r, p) == FindLevel(t, p) {
      if FindLevel(t, p).Some? {
        var l := Level(p, FindLevel(t, p).value);
        assert l in multiset(r);
        FindLevelIn(r, l);
      }
    }
  }

  // ---------------------------------------------------------------------
  // Dispatch order: levels one after another, each in insertion order.

  function LevelItems(l: Level): (r: seq<Scheduled>)
    ensures |r| == |l.slots|
    ensures forall i | 0 <= i < |r| :: r[i] == Scheduled(l.priority, l.slots[i].entry)
  {
    seq(|l.slots|, i requires 0 <= i < |l.slots| => Scheduled(l.priority, l.slots[i].entry))
  }

  /** The entries of a table in the order the dispatch loop visits them. */
  function Flatten(t: seq<Level>): seq<Scheduled> {
    if t == [] then [] else LevelItems(t[0]) + Flatten(t[1..])
  }

  lemma {:induction false} FlattenAbove(t: seq<Level>, lo: int)
    requires forall i | 0 <= i < |t| :: t[i].priority > lo
    ensures forall k | 0 <= k < |Flatten(t)| :: Flatten(t)[k].priority > lo
  {
    if t != [] {
      FlattenAbove(t[1..], lo);
    }
  }

  /** A schedule that never goes back to a lower priority. */
  predicate Ascending(sched: seq<Scheduled>) {
    forall i, j | 0 <= i < j < |sched| :: sched[i].priority <= sched[j].priority
  }

  /** Over a sorted table the schedule never goes back to a lower priority,
      so an entry at a lower priority always runs before one at a higher. */
  lemma {:induction false} FlattenAscending(t: seq<Level>)
    requires Sorted(t)
    ensures Ascending(Flatten(t))
  {
    if t != [] {
      var head := LevelItems(t[0]);
      var tail := Flatten(t[1..]);
      FlattenAscending(t[1..]);
      FlattenAbove(t[1..], t[0].priority);
      var all: seq<Scheduled> := head + tail;
      assert all == Flatten(t);
      forall i, j | 0 <= i < j < |all| ensures all[i].priority <= all[j].priority {
        if j < |head| {
        } else if i < |head| {
          assert all[j] == tail[j - |head|];
        } else {
          assert all[i] == tail[i - |head|] && all[j] == tail[j - |head|];
        }
      }
    }
  }

  /** Every registered entry is scheduled, with the priority it is stored at. */
  lemma {:induction false} FlattenComplete(t: seq<Level>, p: int, key: string)
    requires Lookup(t, p, key).Some?
    ensures Scheduled(p, Lookup(t, p, key).value) in Flatten(t)
  {
    if t[0].priority == p {
      var e := Lookup(t, p, key).value;
      var i :| 0 <= i < |t[0].slots| && t[0].slots[i] == Slot(key, e);
      assert LevelItems(t[0])[i] == Scheduled(p, e);
    } else {
      FlattenComplete(t[1..], p, key);
    }
  }

  /** The converse of `FlattenComplete`: every item the walk visits is an
      entry stored in the table, at the priority it is stored under. */
  lemma FlattenSound(t: seq<Level>, x: Scheduled) returns (key: string)
    requires WellFormed(t) && x in Flatten(t)
    ensures Lookup(t, x.priority, key) == Some(x.entry)
  {
    var i, j := FlattenMember(t, x);
    FindLevelIn(t, t[i]);
    GetIn(t[i].slots, j);
    key := t[i].slots[j].key;
  }

  /** An item of the walk comes from one slot of one level. */
  lemma {:induction false} FlattenMember(t: seq<Level>, x: Scheduled) returns (i: nat, j: nat)
    requires x in Flatten(t)
    ensures i < |t| && j < |t[i].slots| && x == Scheduled(t[i].priority, t[i].slots[j].entry)
  {
    if x in LevelItems(t[0]) {
      var m :| 0 <= m < |LevelItems(t[0])| && LevelItems(t[0])[m] == x;
      i, j := 0, m;
    } else {
      var i', j' := FlattenMember(t[1..], x);
      i, j := i' + 1, j';
    }
  }

  /** In a level with unique keys, each slot's key reads back its entry. */
  lemma GetIn(slots: seq<Slot>, j: nat)
    requires Distinct(Keys(slots)) && j < |slots|
    ensures Get(slots, slots[j].key) == Some(slots[j].entry)
  {
    KeyOf(slots, j);
    var m := GetSlot(slots, slots[j].key);
    SameKeySameSlot(slots, j, m);
  }

  /** In a level with unique keys, no two slots share a key. */
  lemma SameKeySameSlot(slots: seq<Slot>, j: nat, m: nat)
    requires Distinct(Keys(slots)) && j < |slots| && m < |slots|
    requires slots[m].key == slots[j].key
    ensures m == j
  {
    KeyOf(slots, m);
    KeyOf(slots, j);
    DistinctSame(Keys(slots), j, m);
  }

  lemma KeyOf(slots: seq<Slot>, j: nat)
    requires j < |slots|
    ensures Keys(slots)[j] == slots[j].key && slots[j].key in Keys(slots)
  {
  }

  /** The slot a read comes from. */
  lemma GetSlot(slots: seq<Slot>, key: string) returns (m: nat)
    requires key in Keys(slots)
    ensures m < |slots| && Get(slots, key) == Some(slots[m].entry) && slots[m].key == key
    ensures Keys(slots)[m] == key
  {
    var v := Get(slots, key).value;
    m :| 0 <= m < |slots| && slots[m] == Slot(key, v);
  }

  /** The number of registrations a table holds: one per slot. */
  function Size(t: seq<Level>): nat {
    if t == [] then 0 else |t[0].slots| + Size(t[1..])
  }

  /** The walk visits each slot once: it has exactly as many items as the
      table has registrations. */
  lemma {:induction false} FlattenCount(t: seq<Level>)
    ensures |Flatten(t)| == Size(t)
  {
    if t != [] {
      FlattenCount(t[1..]);
    }
  }

  lemma {:induction false} InsertSize(l: Level, t: seq<Level>)
    ensures Size(Insert(l, t)) == |l.slots| + Size(t)
  {
    if t != [] && l.priority >= t[0].priority {
      InsertSize(l, t[1..]);
      assert Insert(l, t) == [t[0]] + Insert(l, t[1..]);
      assert ([t[0]] + Insert(l, t[1..]))[1..] == Insert(l, t[1..]);
    }
  }

  /** `ksort` moves levels but neither adds nor drops a registration. */
  lemma {:induction false} KsortSize(t: seq<Level>)
    requires Distinct(Priorities(t))
    ensures Size(Ksort(t)) == Size(t)
  {
    if t != [] {
      DistinctCons(t[0].priority, Priorities(t[1..]));
      KsortSize(t[1..]);
      InsertSize(t[0], Ksort(t[1..]));
    }
  }

  /** The walk over a table is the walk up to a level, that level's
      entries, then the walk over the rest. */
  lemma {:induction false} FlattenSplit(t: seq<Level>, k: nat)
    requires k < |t|
    ensures Flatten(t) == Flatten(t[..k]) + LevelItems(t[k]) + Flatten(t[k + 1..])
  {
    if k == 0 {
      assert t[..0] == [] && t[1..] == t[k + 1..];
    } else {
      FlattenSplit(t[1..], k - 1);
      ShiftSlices(t, k);
      FlattenCons(t[0], t[1..k]);
    }
  }

  lemma ShiftSlices<T>(t: seq<T>, k: nat)
    requires 0 < k < |t|
    ensures t[1..][..k - 1] == t[1..k] && t[1..][k - 1] == t[k] && t[1..][k..] == t[k + 1..]
    ensures t[..k] == [t[0]] + t[1..k]
  {
  }

  lemma FlattenCons(x: Level, rest: seq<Level>)
    ensures Flatten([x] + rest) == LevelItems(x) + Flatten(rest)
  {
    assert ([x] + rest)[0] == x && ([x] + rest)[1..] == rest;
  }

  lemma LevelItemsAppend(p: int, s: seq<Slot>, x: Slot)
    ensures LevelItems(Level(p, s + [x])) == LevelItems(Level(p, s)) + [Scheduled(p, x.entry)]
  {
    var a := LevelItems(Level(p, s + [x]));
    var b := LevelItems(Level(p, s)) + [Scheduled(p, x.entry)];
    assert |a| == |b|;
    forall i | 0 <= i < |a| ensures a[i] == b[i] {
      if i < |s| {
        assert (s + [x])[i] == s[i];
      }
    }
  }

  /** Where a level ends with slot `x`, the walk reaches `x` right after the
      rest of that level. */
  lemma FlattenAround(u: seq<Level>, p: int, s: seq<Slot>, x: Slot) returns (before: seq<Scheduled>, after: seq<Scheduled>)
    requires FindLevel(u, p) == Some(s + [x])
    ensures Flatten(u) == before + LevelItems(Level(p, s)) + [Scheduled(p, x.entry)] + after
  {
    var k :| 0 <= k < |u| && u[k] == Level(p, s + [x]);
    FlattenSplit(u, k);
    LevelItemsAppend(p, s, x);
    before, after := Flatten(u[..k]), Flatten(u[k + 1..]);
  }

  /** A slot of a level is among the level's scheduled entries. */
  lemma SlotScheduled(p: int, s: seq<Slot>, sl: Slot)
    requires sl in s
    ensures Scheduled(p, sl.entry) in LevelItems(Level(p, s))
  {
    var i :| 0 <= i < |s| && s[i] == sl;
    assert LevelItems(Level(p, s))[i] == Scheduled(p, sl.entry);
  }

  /** Two keys stored in turn at one priority of an empty table are
      scheduled in the order they were stored. */
  lemma TwoStores(p: int, k1: string, e1: Entry, k2: string, e2: Entry)
    requires k1 != k2
    ensures Store(Store([], p, k1, e1), p, k2, e2) == [Level(p, [Slot(k1, e1), Slot(k2, e2)])]
    ensures Flatten(Store(Store([], p, k1, e1), p, k2, e2)) == [Scheduled(p, e1), Scheduled(p, e2)]
  {
    StoreIntoEmpty(p, k1, e1);
    StoreIntoSingle(p, k1, e1, k2, e2);
    FlattenSingle(Level(p, [Slot(k1, e1), Slot(k2, e2)]));
  }

  lemma StoreIntoEmpty(p: int, k: string, e: Entry)
    ensures Store([], p, k, e) == [Level(p, [Slot(k, e)])]
  {
    assert Upsert([], k, e) == [Slot(k, e)];
  }

  /** Two stores at different priorities of an empty table give two
      one-entry levels in the order they were stored. */
  lemma StoreTwoPriorities(p: int, q: int, key: string, e: Entry)
    requires p != q
    ensures Store(Store([], p, key, e), q, key, e) == [Level(p, [Slot(key, e)]), Level(q, [Slot(key, e)])]
  {
    StoreIntoEmpty(p, key, e);
    StoreAfterOne(p, q, key, e);
  }

  lemma StoreAfterOne(p: int, q: int, key: string, e: Entry)
    requires p != q
    ensures Store([Level(p, [Slot(key, e)])], q, key, e) == [Level(p, [Slot(key, e)]), Level(q, [Slot(key, e)])]
  {
    var t1 := [Level(p, [Slot(key, e)])];
    assert Priorities(t1) == [p];
    StoreNewLevel(t1, q, key, e);
  }

  lemma StoreIntoSingle(p: int, k1: string, e1: Entry, k2: string, e2: Entry)
    requires k1 != k2
    ensures Store([Level(p, [Slot(k1, e1)])], p, k2, e2) == [Level(p, [Slot(k1, e1), Slot(k2, e2)])]
  {
    assert FindLevel([Level(p, [Slot(k1, e1)])], p) == Some([Slot(k1, e1)]);
    assert [Slot(k1, e1)][1..] == [];
    assert Upsert([Slot(k1, e1)], k2, e2) == [Slot(k1, e1), Slot(k2, e2)];
  }

  lemma FlattenSingle(l: Level)
    ensures Flatten([l]) == LevelItems(l)
  {
    assert [l][1..] == [];
  }
}
